=== FILE: README.md ===
# PixivUtil2 list handler — a Dafny model

This project models the decision logic of `PixivListHandler.py`:

- **the batch run `process_list`**:
  - it acquires a list of members, from the database or from a list file;
  - it reconciles that list with the ignore list;
  - it drives every member through the member handler (or the tag handler) with a bounded retry;
- **the content filter `process_blacklist`**, which picks the images of one listing to download;
- **the deduplication gate `process_list_with_db`**, which drops images already in the download database and can stop early.

Collaborators the module only calls are parameters of the model:

| collaborator | modelled as |
|---|---|
| database queries | a function from the list source to a result |
| list-file parser | that same function |
| member and tag handlers | one stream of outcomes per work item |
| download database | a set of image ids |
| current time | an integer parameter |
| regular-expression search | an uninterpreted predicate |

Module layout:

- `Ids` (`ids.dfy`): the image id type shared by the content filter and the deduplication gate.
- `Seqs` (`seqs.dfy`): the order-preserving subsequence relation and its lemmas.
- `Reconciliation` (`reconcile.dfy`): work items and the ignore-list pass.
- `Retry` (`retry.dfy`): the `while True` retry loop for a single item, as a `Settlement`. A settlement is the number of handler calls and how the item ended.
- `ProcessList` (`process_list.dfy`): all of `process_list`. It covers:
  - the list source and the batch-fatal error path;
  - the loop over the work items, as a trace of events:
    - each handler call, with its `retry_count` and the "[i of N]" progress prefix computed for it (only the member handler receives the prefix; the tag handler is called without it);
    - give-ups;
    - download-date updates;
    - history resets.
- `ContentFilter` (`content_filter.dfy`): `process_blacklist`, its per-image rules and a reference definition of acceptance.
- `Dedup` (`dedup.dfy`): `process_list_with_db` and a reference definition of its result.

Two behaviours of the code are worth noting:

- **Give-up point.** The test `retry_count > config.retry` comes before the increment. So an always-failing handler is called `max(1, retry + 2)` times, one more than `retry + 1` whenever `retry >= -1` (`Retry.AlwaysFailingGivesUp`). A handler that fails `k` times and then succeeds succeeds iff `k <= max(0, retry + 1)` (`Retry.FailThenSucceed`). For `retry <= -2` the handler is called exactly once.
- **Duplicates.** Reconciliation does not make work items unique. One ignore entry removes only the first item with its member id, so a duplicated id survives (`Reconciliation.DuplicateSurvives`). "No ignored id survives" and idempotence hold only when the primary ids are distinct.

## Model

| member | source | states |
|---|---|---|
| Reconciliation.Reconcile | PixivListHandler.py:33-37 | each ignore entry removes at most one item, so the list loses at most `len(ignore)` items; characterised by `ReconcileIds`, `ReconcileSubseq` and `ReconcileLength` |
| Reconciliation.RemoveFirst | PixivListHandler.py:34-37 | an ignore entry whose id is not in the list leaves it unchanged; otherwise the list loses exactly one item |
| Reconciliation.RemoveFirstAt | PixivListHandler.py:34-37 | the item removed is the first one carrying the id; everything before and after it is kept in place |
| Reconciliation.RemoveFirstSubseq | PixivListHandler.py:34-37 | removing the first match leaves an order-preserving subsequence |
| Reconciliation.RemoveFirstIds | PixivListHandler.py:34-37 | on member ids, one ignore entry takes out exactly one copy of its id, or nothing when absent |
| Reconciliation.ReconcileSubseq | PixivListHandler.py:33-37 | the reconciled list is an order-preserving subsequence of the primary list |
| Reconciliation.ReconcileIds | PixivListHandler.py:33-37 | the member ids left are the multiset difference of primary ids and ignore ids |
| Reconciliation.ReconcileLength | PixivListHandler.py:33-37 | the list shrinks by exactly the number of ignore entries that found a match (the size of the common part of the two id multisets) |
| Reconciliation.NoIgnoredSurvives | PixivListHandler.py:33-37 | with distinct primary ids, no ignored member id remains |
| Reconciliation.ReconcileNoMatch | PixivListHandler.py:33-37 | an ignore list sharing no id with the list changes nothing |
| Reconciliation.ReconcileIdempotent | PixivListHandler.py:33-37 | with distinct primary ids, applying the same ignore list again changes nothing |
| Reconciliation.DuplicateSurvives | PixivListHandler.py:33-37 | without distinct ids, one ignore entry removes only one of two equal ids, and a second pass removes the other |
| Retry.Settle | PixivListHandler.py:42-64 | each item makes at least one call and never gets past the first count above the retry limit |
| Retry.SettleCharacterised | PixivListHandler.py:42-64 | every call before the last one failed; the last call's outcome is how the item ended; a give-up happens exactly at the first count above the limit |
| Retry.AlwaysFailingGivesUp | PixivListHandler.py:58-64 | an always-failing handler is called max(1, retry + 2) times, then the item is given up |
| Retry.FailThenSucceed | PixivListHandler.py:42-64 | k failures then a success reach success iff k <= max(0, retry + 1), after k + 1 calls; otherwise a give-up after max(1, retry + 2) calls |
| Retry.InterruptNotRetried | PixivListHandler.py:56-57 | a keyboard interrupt before the give-up point ends the item at that call, without a retry |
| ProcessList.RunItems | PixivListHandler.py:40-67 | the loop over the work items is cancelled iff some item's handler raised a keyboard interrupt; its trace is characterised by the `Run*` lemmas below, including the order of calls (`RunInOrder`, `RunResetsBetweenItems`) and each item's events as one contiguous block (`ItemEventsContiguous`) |
| ProcessList.RunWellPlaced | PixivListHandler.py:40-54 | every handler call names the item at its position, its retry count is below the item's number of calls, and the prefix computed for it (line 45) is "[s+1 of N]", where s counts earlier items that succeeded and N is the reconciled length; the member handler receives that prefix (50-53), the tag handler does not (46-48) |
| ProcessList.RunAttemptsEveryItem | PixivListHandler.py:41-45 | every item enters the retry loop from `retry_count` 0: each item up to the first interrupted one is called with retry counts 0 .. calls-1, whatever happened to earlier items |
| ProcessList.RunAttemptCount | PixivListHandler.py:41-64 | the item at position j is called exactly as many times as its settlement says when no earlier item was interrupted, and not at all otherwise: no call is repeated or made after an interrupt |
| ProcessList.RunGiveUps | PixivListHandler.py:58-66 | a run that is not cancelled reports one give-up per item given up |
| ProcessList.RunReportsGiveUp | PixivListHandler.py:58-61 | an item given up before any interrupt has its give-up message on the trace |
| ProcessList.RunUpdatesDate | PixivListHandler.py:46-48 | in tag mode, an item that succeeded before any interrupt has the download date of its own member id stored on the trace |
| ProcessList.RunInOrder | PixivListHandler.py:41-64 | the calls come in strictly increasing (position, retry count) order: items in input order, and each item's calls with increasing `retry_count` |
| ProcessList.RunResetsBetweenItems | PixivListHandler.py:41-66 | between a call for one item and a later call for another, the history is reset: `clear_history` runs after an item's last call and before the next item's first call |
| ProcessList.ItemEventsContiguous | PixivListHandler.py:41-66 | every item reached without an interrupt contributes its events as one contiguous block of the trace: its calls with retry counts 0 .. calls-1, then the date update (line 48) or the give-up (line 60), then the history reset (line 66), with no other event in between |
| ProcessList.RunCancelledIff | PixivListHandler.py:41-57 | the loop is cancelled iff some item's handler raised a keyboard interrupt |
| ProcessList.RunStopsAtInterrupt | PixivListHandler.py:41-57 | no item after an interrupted one is called |
| ProcessList.RunEndsWithInterrupt | PixivListHandler.py:41-66 | a cancelled trace ends with the interrupted call itself: no history reset and no later item follow it |
| ProcessList.RunCounts | PixivListHandler.py:41-66 | a run that is not cancelled resets the history once per item; in tag mode it stores the download date once per successful item, and never outside tag mode |
| ProcessList.ProcessList | PixivListHandler.py:12-74 | the batch is aborted iff reading the primary list or the ignore list raised; the error code is the error's code, else -1; a run is cancelled iff some work item's handler raised a keyboard interrupt |
| ProcessList.ProcessListRuns | PixivListHandler.py:39-67 | on a work list that was built, the result is never an abort; every call is well placed; a finished run has the reset and date-update counts above; a cancelled run ends with the interrupted call |
| ProcessList.ProcessListItems | PixivListHandler.py:39-67 | on a work list that was built, each item gets exactly its settlement's number of calls unless an earlier item was interrupted, and a finished run reports one give-up per item given up; an item given up before any interrupt has its give-up on the trace, and in tag mode an item that succeeded before any interrupt has its own member's download date stored |
| ProcessList.ProcessListOrder | PixivListHandler.py:41-66 | the calls of `process_list` come in input order, each item with increasing retry counts, and the history is reset between one item's calls and the next item's |
| ProcessList.ProcessListBlocks | PixivListHandler.py:40-66 | in `process_list`'s trace, every work item reached without an interrupt appears as one contiguous block: its calls, then its date update or give-up, then its history reset |
| ProcessList.AlwaysFailingItem | PixivListHandler.py:41-64 | a work item whose handler always fails, reached without an interrupt, is called exactly max(1, retry + 2) times on the trace and then reported as given up |
| ContentFilter.Contains | PixivListHandler.py:146 | Python's `pat in text` on strings: a longer pattern is never found and the empty pattern always is; characterised by `ContainsIff` |
| ContentFilter.ContainsIff | PixivListHandler.py:145-147 | the substring test `pat in text` holds iff `pat` occurs at some index of `text` |
| ContentFilter.AdultTagIff | PixivListHandler.py:143-148 | the R-18 gate passes iff some tag contains "R-18" at some index |
| ContentFilter.TitleHitIff | PixivListHandler.py:172-177 | with regex matching off, a title is blacklisted iff some blacklist entry occurs in it |
| ContentFilter.Screen | PixivListHandler.py:130-180 | one pass of the loop body: an accepted image carries every required tag, and only a dated image under an enabled cutoff stops the walk; characterised by `ScreenCharacterised` |
| ContentFilter.ScreenCharacterised | PixivListHandler.py:130-180 | an image is kept iff it does not stop the walk and passes the plain conjunction of the rules (the `notRemoved` guards only save work); the walk stops exactly at a dated, too-old non-advert image; the R-18 counter moves exactly for R-18 rejects |
| ContentFilter.ProcessBlacklist | PixivListHandler.py:123-184 | downloads plus R-18 skips never exceed the number of images |
| ContentFilter.ProcessBlacklistComplete | PixivListHandler.py:130-184 | when the flag is not set, no image stops the walk; the ids are the acceptable ids of the whole listing and the R-18 count is the number of R-18 rejects |
| ContentFilter.ProcessBlacklistStopped | PixivListHandler.py:135-141 | when the flag is set, the walk stopped at the first image that stops it; neither it nor any later image contributes ids or R-18 skips |
| ContentFilter.ProcessBlacklistCharacterised | PixivListHandler.py:123-184 | both of the above together: the whole result against the reference, for either value of the flag |
| ContentFilter.ProcessBlacklistSubseq | PixivListHandler.py:130-180 | the ids to download are an order-preserving subsequence of the listing's ids |
| ContentFilter.AcceptedIdsMembers | PixivListHandler.py:179-180 | an id is in the reference result iff some acceptable image carries it |
| ContentFilter.DateCheckDisabled | PixivListHandler.py:135 | with `dateDiff <= 0` the walk never stops and returns the acceptable ids of the whole listing |
| ContentFilter.UndatedNeverStops | PixivListHandler.py:136-137 | images carrying the 0001-01-01 sentinel date never trigger the cutoff |
| ContentFilter.OneDayTooOldStops | PixivListHandler.py:138-141 | a non-advert image a day past the cutoff at the head of the listing sets the flag and yields nothing |
| ContentFilter.AdultGateIsSubstring | PixivListHandler.py:143-156 | in R-18 mode an image tagged only "R-18G" is accepted, because the gate is a substring test, but requiring the tag "R-18" rejects it, because required tags need exact membership |
| ContentFilter.TitleRegexVersusSubstring | PixivListHandler.py:165-177 | "^Foo" rejects "Foo Bar" only through the regular-expression search, not as a substring; "oo B" rejects it as a substring |
| Dedup.ProcessListWithDb | PixivListHandler.py:187-200 | the result keeps input order and holds no downloaded id; with a falsy limit it is exactly the new ids; `PositiveLimit` states the cut-off for a positive limit |
| Dedup.DedupFrom | PixivListHandler.py:191-199 | no returned id is in the download database |
| Dedup.DedupSubseq | PixivListHandler.py:191-199 | the result is an order-preserving subsequence of the input |
| Dedup.NoLimitKeepsAllNew | PixivListHandler.py:191-199 | with a falsy (or negative) limit, the result is exactly the ids not in the database, in input order |
| Dedup.DedupFromCharacterised | PixivListHandler.py:191-199 | with a positive limit and a counter already at `count`, the result is the new ids up to the first point where `limit` consecutive known ids have been seen, counting those already seen; if there is no such point, all new ids |
| Dedup.PositiveLimit | PixivListHandler.py:187-200 | from a counter of 0, a positive limit returns the new ids up to the end of the first run of `limit` consecutive known ids, or all new ids when there is none |
| Dedup.LimitExample | PixivListHandler.py:191-199 | a new id resets the counter: with limit 3 over known, known, new, known, known, known, new, only the first new id is returned |

## Left out

- **File and database I/O.** The model leaves out:
  - the database queries;
  - `PixivListItem.parseList`;
  - the existence check on `ignore_list.txt`.

  Their results are inputs: a `load` function from the list source, and an `IgnoreFile` value that is absent, read, or raised.
- **The handlers.** `PixivArtistHandler.process_member` and `PixivTagsHandler.process_tags` are network code that cannot be seen here. Each work item gets a stream of outcomes instead. An error from `updateLastDownloadDate` in tag mode falls inside the same `try`, so it is folded into that call's outcome.
- **Errors after a successful call.** `br.clear_history()` is a `HistoryCleared` event. The model does not cover it raising, nor the outer handler then aborting the batch.
- **Side effects with no logic.** `time.sleep(2)`, printing and logging are dropped. The string form of the progress prefix is modelled as the pair `Progress(current, total)`.
- **The R-18 count.** `process_blacklist` only logs `r18skip`; the model returns it so that it can be stated.
- **Dates.** `datetime_z.parse_datetime`, `datetime.today()` and time zones are not modelled. Dates are whole seconds since 0001-01-01T00:00:00Z, with that instant (0) as the "no date" value. The current time is one parameter for the whole walk, whereas line 138 evaluates `datetime.today()` again for each dated image.
- **Regular expressions.** Python's `re.search` semantics are not modelled: title-regex matching is an uninterpreted predicate.
- **Other functions.** `process_tags_list` and `import_list` (PixivListHandler.py:77-121) are thin loops over parsers, handlers and the database. They have no logic beyond what is modelled.
- **Errors the filters do not raise.** In the model neither `process_blacklist` nor `process_list_with_db` raises. Three errors of the code are left out:
  - `re.search` raising `re.error` on an invalid title-blacklist pattern in regex mode (line 168);
  - the date arithmetic at line 138 raising `OverflowError` when the cutoff falls before year 1 (a `dateDiff` of roughly 739,000 days or more), where the model's cutoff comparison is simply false;
  - an error from `db.selectImageByImageId` (line 192) propagating out of `process_list_with_db`, which a set of known ids cannot express.
- **Interrupts outside handler calls.** A keyboard interrupt is modelled only as a handler outcome, not one arriving during list loading, the sleep or `clear_history`.
- **A dead check.** The `isinstance(ex, KeyboardInterrupt)` test in the outer handler can never fire, because `KeyboardInterrupt` is not an `Exception`. It does not appear in the model.
- **Value types.** `config.retry`, `dateDiff` and the dedup `limit` are integers. Both falsy values of `limit` (`None` and 0) are 0. A non-empty `tags` string selects tag mode.
- ContentFilter.ProcessBlacklist: its own contract is only a size bound. The content of its result is stated by `ContentFilter.ProcessBlacklistCharacterised`.
- ProcessList.ProcessList: its own contract covers the error path and cancellation only. The trace is described by `ProcessList.ProcessListRuns`, `ProcessList.ProcessListItems`, `ProcessList.ProcessListOrder`, `ProcessList.ProcessListBlocks` and the `Run*` lemmas.
- Reconciliation.Reconcile: its own contract is a length bound. The ids, order and exact length are stated by `ReconcileIds`, `ReconcileSubseq` and `ReconcileLength`.
- ContentFilter.Contains: its own contract covers the length cases only. Its meaning is stated by `ContentFilter.ContainsIff`.
- ContentFilter.Screen: its own contract states two consequences only. The full verdict is stated by `ContentFilter.ScreenCharacterised`.

=== FILE: content_filter.dfy ===
/** `process_blacklist`: walks the images of one listing and keeps the ids
    that pass the content rules (advert containers, date cutoff, R-18 mode,
    required tags, tag and title blacklists). Dates are whole seconds since
    0001-01-01T00:00:00Z, the current time is a parameter, and Python's
    `re.search` is an uninterpreted predicate. */
module ContentFilter {
  import opened Seqs
  import opened Ids

  const SecondsPerDay: int := 86400

  /** 0001-01-01T00:00:00Z, the date the parser returns for an image that
      carries none; it never triggers the date cutoff. */
  const NoDate: int := 0

  /** The tag fragment that marks adult content. */
  const AdultMarker: string := "R-18"

  /** One entry of the listing: an image, or an advert container. */
  datatype Image = Image(id: ImageId, createDate: int, tags: seq<string>, title: string,
                         isAdContainer: bool)

  /** The configuration switches the filter reads. */
  datatype FilterConfig = FilterConfig(dateDiff: int, r18mode: bool, useBlacklistTags: bool,
                                       useBlacklistTitles: bool, useBlacklistTitlesRegex: bool)

  /** The caller's tag and title blacklists. */
  datatype Blacklists = Blacklists(tags: seq<string>, titles: seq<string>)

  /** `search(pattern, text)`: the regular expression finds a match
      somewhere in the text. */
  type Search = (string, string) -> bool

  /** The ids to download, whether the date cutoff stopped the walk, and how
      many images the R-18 mode skipped. */
  datatype FilterResult = FilterResult(toDownload: seq<ImageId>, stopped: bool, r18Skipped: nat)

  // ---------------------------------------------------------------------
  // Substrings: Python's `pat in text` on strings

  /** `pat` occurs in `text` starting at index `i`. */
  predicate MatchesAt(text: string, pat: string, i: int)
  {
    0 <= i && i + |pat| <= |text| && text[i..i + |pat|] == pat
  }

  /** Reference meaning of `pat in text`: some index where `pat` starts. */
  ghost predicate Occurs(pat: string, text: string)
  {
    exists i :: MatchesAt(text, pat, i)
  }

  /** `pat in text`, by trying each start position in turn. */
  function Contains(text: string, pat: string): (r: bool)
    ensures r ==> |pat| <= |text|
    ensures |pat| == 0 ==> r
    decreases |text|
  {
    if |pat| > |text| then false
    else if text[..|pat|] == pat then true
    else Contains(text[1..], pat)
  }

  /** The search agrees with the reference meaning. */
  lemma {:induction false} ContainsIff(text: string, pat: string)
    ensures Contains(text, pat) <==> Occurs(pat, text)
    decreases |text|
  {
    if |pat| > |text| {
    } else if text[..|pat|] == pat {
      assert MatchesAt(text, pat, 0);
    } else {
      ContainsIff(text[1..], pat);
      if Occurs(pat, text[1..]) {
        var i :| MatchesAt(text[1..], pat, i);
        SliceOfTail(text, i + 1, i + 1 + |pat|);
        assert MatchesAt(text, pat, i + 1);
      }
      if Occurs(pat, text) {
        var i :| MatchesAt(text, pat, i);
        assert i != 0;
        SliceOfTail(text, i, i + |pat|);
        assert MatchesAt(text[1..], pat, i - 1);
      }
    }
  }

  // ---------------------------------------------------------------------
  // The rules for one image

  /** Some tag contains "R-18" as a substring, so "R-18G" counts too. */
  predicate HasAdultTag(tags: seq<string>)
  {
    exists t :: t in tags && Contains(t, AdultMarker)
  }

  /** The image is dated and older than `dateDiff` days before `now`. */
  predicate TooOld(cfg: FilterConfig, now: int, img: Image)
  {
    cfg.dateDiff > 0 && img.createDate != NoDate
    && img.createDate < now - cfg.dateDiff * SecondsPerDay
  }

  /** The image that ends the walk: not an advert container, and too old. */
  predicate StopsScan(cfg: FilterConfig, now: int, img: Image)
  {
    !img.isAdContainer && TooOld(cfg, now, img)
  }

  /** The title hits the title blacklist, by regular expression search or by
      substring containment. */
  predicate TitleHit(cfg: FilterConfig, bl: Blacklists, search: Search, title: string)
  {
    if cfg.useBlacklistTitlesRegex then exists p :: p in bl.titles && search(p, title)
    else exists p :: p in bl.titles && Contains(title, p)
  }

  /** What the loop body does with one image. */
  datatype Verdict = SkipAd | StopTooOld | SkipR18 | Rejected | Accepted

  /** One pass of the loop body, keeping the source's `notRemoved` flag:
      the required-tag check clears it, and each blacklist is consulted
      only while it is still set. */
  function Screen(cfg: FilterConfig, bl: Blacklists, required: seq<string>, search: Search,
                  now: int, img: Image): (v: Verdict)
    ensures v == Accepted ==> forall x :: x in required ==> x in img.tags
    ensures v == StopTooOld ==> cfg.dateDiff > 0 && img.createDate != NoDate
  {
    if img.isAdContainer then SkipAd
    else if TooOld(cfg, now, img) then StopTooOld
    else if cfg.r18mode && !HasAdultTag(img.tags) then SkipR18
    else
      var notRemoved := forall x :: x in required ==> x in img.tags;
      var notRemoved :=
        if cfg.useBlacklistTags && notRemoved
        then !(exists b :: b in bl.tags && b in img.tags)
        else notRemoved;
      var notRemoved :=
        if cfg.useBlacklistTitles && notRemoved
        then !TitleHit(cfg, bl, search, img.title)
        else notRemoved;
      if notRemoved then Accepted else Rejected
  }

  /** Reference acceptance: the plain conjunction of the content rules, with
      substring containment in its index form. The date cutoff is not part
      of it: it ends the walk instead of rejecting one image. */
  ghost predicate Acceptable(cfg: FilterConfig, bl: Blacklists, required: seq<string>,
                             search: Search, img: Image)
  {
    && !img.isAdContainer
    && (cfg.r18mode ==> exists t :: t in img.tags && Occurs(AdultMarker, t))
    && (forall x :: x in required ==> x in img.tags)
    && (cfg.useBlacklistTags ==> forall b :: b in bl.tags ==> b !in img.tags)
    && (cfg.useBlacklistTitles && cfg.useBlacklistTitlesRegex ==>
          forall p :: p in bl.titles ==> !search(p, img.title))
    && (cfg.useBlacklistTitles && !cfg.useBlacklistTitlesRegex ==>
          forall p :: p in bl.titles ==> !Occurs(p, img.title))
  }

  /** An image that is not an advert container and lacks an adult tag while
      R-18 mode is on: the images the R-18 counter counts. */
  ghost predicate R18Reject(cfg: FilterConfig, img: Image)
  {
    !img.isAdContainer && cfg.r18mode && forall t :: t in img.tags ==> !Occurs(AdultMarker, t)
  }

  lemma AdultTagIff(tags: seq<string>)
    ensures HasAdultTag(tags) <==> exists t :: t in tags && Occurs(AdultMarker, t)
  {
    forall t | t in tags ensures Contains(t, AdultMarker) <==> Occurs(AdultMarker, t) {
      ContainsIff(t, AdultMarker);
    }
  }

  lemma TitleHitIff(cfg: FilterConfig, bl: Blacklists, search: Search, title: string)
    requires !cfg.useBlacklistTitlesRegex
    ensures TitleHit(cfg, bl, search, title) <==> exists p :: p in bl.titles && Occurs(p, title)
  {
    forall p | p in bl.titles ensures Contains(title, p) <==> Occurs(p, title) {
      ContainsIff(title, p);
    }
  }

  /** The `notRemoved` guards only save work once an image is rejected: an
      image is kept iff it does not stop the walk and passes the plain
      conjunction of the rules. The walk stops exactly at a dated,
      too-old image that is not an advert container, and the R-18 counter
      moves exactly for the R-18 rejects. */
  lemma ScreenCharacterised(cfg: FilterConfig, bl: Blacklists, required: seq<string>,
                            search: Search, now: int, img: Image)
    ensures var v := Screen(cfg, bl, required, search, now, img);
            && (v == Accepted <==> !StopsScan(cfg, now, img) && Acceptable(cfg, bl, required, search, img))
            && (v == StopTooOld <==> StopsScan(cfg, now, img))
            && (v == SkipR18 <==> !StopsScan(cfg, now, img) && R18Reject(cfg, img))
            && (v == SkipAd <==> img.isAdContainer)
  {
    AdultTagIff(img.tags);
    if !cfg.useBlacklistTitlesRegex {
      TitleHitIff(cfg, bl, search, img.title);
    }
  }

  // ---------------------------------------------------------------------
  // The walk over the listing

  /** `process_blacklist`: the `for image in imagedata` loop. */
  function ProcessBlacklist(cfg: FilterConfig, bl: Blacklists, required: seq<string>,
                            search: Search, now: int, images: seq<Image>): (r: FilterResult)
    ensures |r.toDownload| + r.r18Skipped <= |images|
  {
    if |images| == 0 then FilterResult([], false, 0)
    else
      var rest := ProcessBlacklist(cfg, bl, required, search, now, images[1..]);
      match Screen(cfg, bl, required, search, now, images[0])
      case SkipAd => rest
      case StopTooOld => FilterResult([], true, 0)
      case SkipR18 => rest.(r18Skipped := rest.r18Skipped + 1)
      case Rejected => rest
      case Accepted => rest.(toDownload := [images[0].id] + rest.toDownload)
  }

  /** Reference: the ids of the acceptable images, in order. */
  ghost function AcceptedIds(cfg: FilterConfig, bl: Blacklists, required: seq<string>,
                             search: Search, images: seq<Image>): seq<ImageId>
  {
    if |images| == 0 then []
    else (if Acceptable(cfg, bl, required, search, images[0]) then [images[0].id] else [])
         + AcceptedIds(cfg, bl, required, search, images[1..])
  }

  /** Reference: the number of R-18 rejects. */
  ghost function R18Count(cfg: FilterConfig, images: seq<Image>): nat
  {
    if |images| == 0 then 0
    else (if R18Reject(cfg, images[0]) then 1 else 0) + R18Count(cfg, images[1..])
  }

  /** Image `n` is the first one of the listing that stops the walk. */
  predicate FirstStop(cfg: FilterConfig, now: int, images: seq<Image>, n: int)
  {
    && 0 <= n < |images|
    && StopsScan(cfg, now, images[n])
    && (forall i :: 0 <= i < n ==> !StopsScan(cfg, now, images[i]))
  }

  /** A walk that did not stop met no image that stops it, and its result is
      the reference over the whole listing. */
  lemma {:induction false} ProcessBlacklistComplete(
    cfg: FilterConfig, bl: Blacklists, required: seq<string>, search: Search, now: int,
    images: seq<Image>)
    ensures var r := ProcessBlacklist(cfg, bl, required, search, now, images);
            !r.stopped ==>
              && (forall i :: 0 <= i < |images| ==> !StopsScan(cfg, now, images[i]))
              && r.toDownload == AcceptedIds(cfg, bl, required, search, images)
              && r.r18Skipped == R18Count(cfg, images)
    decreases |images|
  {
    if |images| > 0 && !ProcessBlacklist(cfg, bl, required, search, now, images).stopped {
      ProcessBlacklistComplete(cfg, bl, required, search, now, images[1..]);
      ScreenCharacterised(cfg, bl, required, search, now, images[0]);
      forall i | 0 <= i < |images| ensures !StopsScan(cfg, now, images[i]) {
        if i > 0 {
          assert images[i] == images[1..][i - 1];
        }
      }
    }
  }

  /** A walk that stopped did so at the first image that stops it, and only
      the images before that one contributed ids or R-18 skips. */
  lemma {:induction false} ProcessBlacklistStopped(
    cfg: FilterConfig, bl: Blacklists, required: seq<string>, search: Search, now: int,
    images: seq<Image>)
    ensures var r := ProcessBlacklist(cfg, bl, required, search, now, images);
            r.stopped ==>
              exists n :: FirstStop(cfg, now, images, n)
                && r.toDownload == AcceptedIds(cfg, bl, required, search, images[..n])
                && r.r18Skipped == R18Count(cfg, images[..n])
    decreases |images|
  {
    var r := ProcessBlacklist(cfg, bl, required, search, now, images);
    if |images| > 0 && r.stopped {
      var img := images[0];
      var rest := ProcessBlacklist(cfg, bl, required, search, now, images[1..]);
      ScreenCharacterised(cfg, bl, required, search, now, img);
      if StopsScan(cfg, now, img) {
        assert images[..0] == [];
        assert FirstStop(cfg, now, images, 0);
      } else {
        ProcessBlacklistStopped(cfg, bl, required, search, now, images[1..]);
        var n :| FirstStop(cfg, now, images[1..], n)
                 && rest.toDownload == AcceptedIds(cfg, bl, required, search, images[1..][..n])
                 && rest.r18Skipped == R18Count(cfg, images[1..][..n]);
        FirstStopShift(cfg, now, images, n);
        assert images[..n + 1][1..] == images[1..][..n];
        assert images[..n + 1][0] == img;
        assert r.toDownload == AcceptedIds(cfg, bl, required, search, images[..n + 1]);
      }
    }
  }

  lemma FirstStopShift(cfg: FilterConfig, now: int, images: seq<Image>, n: int)
    requires |images| > 0 && !StopsScan(cfg, now, images[0])
    requires FirstStop(cfg, now, images[1..], n)
    ensures FirstStop(cfg, now, images, n + 1)
  {
    forall i | 0 <= i < n + 1 ensures !StopsScan(cfg, now, images[i]) {
      if i > 0 {
        assert images[i] == images[1..][i - 1];
      }
    }
  }

  /** The walk against the reference: if it did not stop, no image stops
      it and the result is the acceptable ids of the whole listing;
      otherwise it stopped at the first image that stops it, and only the
      images before it contributed ids or R-18 skips. */
  lemma ProcessBlacklistCharacterised(
    cfg: FilterConfig, bl: Blacklists, required: seq<string>, search: Search, now: int,
    images: seq<Image>)
    ensures var r := ProcessBlacklist(cfg, bl, required, search, now, images);
            && (!r.stopped ==>
                  && (forall i :: 0 <= i < |images| ==> !StopsScan(cfg, now, images[i]))
                  && r.toDownload == AcceptedIds(cfg, bl, required, search, images)
                  && r.r18Skipped == R18Count(cfg, images))
            && (r.stopped ==>
                  exists n :: FirstStop(cfg, now, images, n)
                    && r.toDownload == AcceptedIds(cfg, bl, required, search, images[..n])
                    && r.r18Skipped == R18Count(cfg, images[..n]))
  {
    ProcessBlacklistComplete(cfg, bl, required, search, now, images);
    ProcessBlacklistStopped(cfg, bl, required, search, now, images);
  }

  /** The ids of a listing, in order. */
  function ImageIds(images: seq<Image>): (ids: seq<ImageId>)
    ensures |ids| == |images|
    ensures forall i :: 0 <= i < |images| ==> ids[i] == images[i].id
  {
    if |images| == 0 then [] else [images[0].id] + ImageIds(images[1..])
  }

  /** The ids to download keep the listing's order. */
  lemma {:induction false} ProcessBlacklistSubseq(
    cfg: FilterConfig, bl: Blacklists, required: seq<string>, search: Search, now: int,
    images: seq<Image>)
    ensures IsSubseq(ProcessBlacklist(cfg, bl, required, search, now, images).toDownload,
                     ImageIds(images))
    decreases |images|
  {
    if |images| > 0 {
      var rest := ProcessBlacklist(cfg, bl, required, search, now, images[1..]);
      var ids := ImageIds(images);
      assert ids == [images[0].id] + ImageIds(images[1..]);
      ProcessBlacklistSubseq(cfg, bl, required, search, now, images[1..]);
      match Screen(cfg, bl, required, search, now, images[0])
      case StopTooOld =>
      case Accepted =>
        SubseqCons(images[0].id, rest.toDownload, ImageIds(images[1..]));
      case _ =>
        SubseqSkip(rest.toDownload, images[0].id, ImageIds(images[1..]));
    }
  }

  /** An id is in the reference result iff some acceptable image carries it. */
  lemma {:induction false} AcceptedIdsMembers(
    cfg: FilterConfig, bl: Blacklists, required: seq<string>, search: Search,
    images: seq<Image>, x: ImageId)
    ensures x in AcceptedIds(cfg, bl, required, search, images) <==>
            exists i :: 0 <= i < |images| && images[i].id == x
                        && Acceptable(cfg, bl, required, search, images[i])
    decreases |images|
  {
    if |images| > 0 {
      AcceptedIdsMembers(cfg, bl, required, search, images[1..], x);
      if exists i :: 0 <= i < |images| && images[i].id == x
                     && Acceptable(cfg, bl, required, search, images[i]) {
        var i :| 0 <= i < |images| && images[i].id == x
                 && Acceptable(cfg, bl, required, search, images[i]);
        if i > 0 {
          assert images[1..][i - 1] == images[i];
        }
      }
      if x in AcceptedIds(cfg, bl, required, search, images[1..]) {
        var i :| 0 <= i < |images[1..]| && images[1..][i].id == x
                 && Acceptable(cfg, bl, required, search, images[1..][i]);
        assert images[i + 1] == images[1..][i];
      }
    }
  }

  /** With `dateDiff <= 0` no date is looked at: the walk never stops and
      returns the acceptable ids of the whole listing. */
  lemma DateCheckDisabled(cfg: FilterConfig, bl: Blacklists, required: seq<string>,
                          search: Search, now: int, images: seq<Image>)
    requires cfg.dateDiff <= 0
    ensures var r := ProcessBlacklist(cfg, bl, required, search, now, images);
            !r.stopped && r.toDownload == AcceptedIds(cfg, bl, required, search, images)
            && r.r18Skipped == R18Count(cfg, images)
  {
    ProcessBlacklistCharacterised(cfg, bl, required, search, now, images);
  }

  /** Undated images never trigger the cutoff: a listing whose images all
      carry the "no date" value is examined to the end, whatever `dateDiff`
      and `now` are. */
  lemma UndatedNeverStops(cfg: FilterConfig, bl: Blacklists, required: seq<string>,
                          search: Search, now: int, images: seq<Image>)
    requires forall i :: 0 <= i < |images| ==> images[i].createDate == NoDate
    ensures var r := ProcessBlacklist(cfg, bl, required, search, now, images);
            !r.stopped && r.toDownload == AcceptedIds(cfg, bl, required, search, images)
  {
    ProcessBlacklistCharacterised(cfg, bl, required, search, now, images);
  }

  /** An image dated `dateDiff + 1` days before `now` at the head of the
      listing ends the walk at once with nothing to download. */
  lemma OneDayTooOldStops(cfg: FilterConfig, bl: Blacklists, required: seq<string>,
                          search: Search, now: int, img: Image, rest: seq<Image>)
    requires cfg.dateDiff > 0 && !img.isAdContainer
    requires img.createDate == now - (cfg.dateDiff + 1) * SecondsPerDay
    requires img.createDate != NoDate
    ensures ProcessBlacklist(cfg, bl, required, search, now, [img] + rest)
            == FilterResult([], true, 0)
  {
    assert ([img] + rest)[0] == img;
  }

  /** The R-18 gate looks for "R-18" inside each tag, so an image tagged
      only "R-18G" passes it in R-18 mode, while a required tag must be
      present exactly: requiring "R-18" rejects the same image. */
  lemma AdultGateIsSubstring(search: Search)
    ensures var img := Image(1, NoDate, ["R-18G"], "", false);
            var cfg := FilterConfig(0, true, false, false, false);
            && Screen(cfg, Blacklists([], []), [], search, 0, img) == Accepted
            && Screen(cfg, Blacklists([], []), ["R-18"], search, 0, img) == Rejected
  {
    assert Contains("R-18G", AdultMarker);
    assert "R-18" !in ["R-18G"];
  }

  /** Title blacklist: the pattern "^Foo" rejects the title "Foo Bar" only
      when the list is searched as regular expressions and the search finds
      it; as a plain substring it is not in the title, while "oo B" is. */
  lemma TitleRegexVersusSubstring(search: Search)
    requires search("^Foo", "Foo Bar")
    ensures var img := Image(1, NoDate, [], "Foo Bar", false);
            var on := FilterConfig(0, false, false, true, true);
            var off := FilterConfig(0, false, false, true, false);
            && Screen(on, Blacklists([], ["^Foo"]), [], search, 0, img) == Rejected
            && Screen(off, Blacklists([], ["^Foo"]), [], search, 0, img) == Accepted
            && Screen(off, Blacklists([], ["oo B"]), [], search, 0, img) == Rejected
  {
    var img := Image(1, NoDate, [], "Foo Bar", false);
    var on := FilterConfig(0, false, false, true, true);
    var off := FilterConfig(0, false, false, true, false);
    assert TitleHit(on, Blacklists([], ["^Foo"]), search, img.title) by {
      assert "^Foo" in ["^Foo"];
    }
    assert !TitleHit(off, Blacklists([], ["^Foo"]), search, img.title) by {
      NoCaretInTitle();
    }
    assert TitleHit(off, Blacklists([], ["oo B"]), search, img.title) by {
      InfixInTitle();
      assert "oo B" in ["oo B"];
    }
  }

  lemma InfixInTitle()
    ensures Contains("Foo Bar", "oo B")
  {
    assert "Foo Bar"[..4][0] != "oo B"[0];
    assert "Foo Bar"[1..][..4] == "oo B";
  }

  lemma NoCaretInTitle()
    ensures !Contains("Foo Bar", "^Foo")
  {
    ContainsIff("Foo Bar", "^Foo");
    forall i ensures !MatchesAt("Foo Bar", "^Foo", i) {
      if 0 <= i && i + 4 <= 7 {
        assert "Foo Bar"[i..i + 4][0] == "Foo Bar"[i] != '^';
      }
    }
  }
}

=== FILE: dedup.dfy ===
/** `process_list_with_db`: drops the image ids already recorded as
    downloaded, and returns early once `limit` known ids have come in a row.
    The download database is the set of known ids; `limit` is an integer in
    which 0 stands for both `None` and 0, the two falsy values. */
module Dedup {
  import opened Seqs
  import opened Ids

  /** The loop from some point on, with `count` the number of known ids seen
      in a row just before it. */
  function DedupFrom(known: set<ImageId>, limit: int, images: seq<ImageId>, count: nat)
    : (r: seq<ImageId>)
    ensures forall k :: 0 <= k < |r| ==> r[k] !in known
  {
    if |images| == 0 then []
    else
      var x := images[0];
      var count' := if x in known then count + 1 else 0;
      var kept := if x in known then [] else [x];
      if limit != 0 && count' == limit then kept
      else kept + DedupFrom(known, limit, images[1..], count')
  }

  /** `process_list_with_db`: the counter starts at 0. The result keeps
      the input order, and with a falsy limit it is exactly the new ids;
      `PositiveLimit` says where a positive limit cuts it off. */
  function ProcessListWithDb(known: set<ImageId>, limit: int, images: seq<ImageId>)
    : (r: seq<ImageId>)
    ensures IsSubseq(r, images)
    ensures forall k :: 0 <= k < |r| ==> r[k] !in known
    ensures limit <= 0 ==> r == NewIds(known, images)
  {
    DedupSubseq(known, limit, images, 0);
    if limit <= 0 then
      NoLimitKeepsAllNew(known, limit, images, 0);
      DedupFrom(known, limit, images, 0)
    else
      DedupFrom(known, limit, images, 0)
  }

  /** Reference: the ids not in the database, in order. */
  function NewIds(known: set<ImageId>, images: seq<ImageId>): seq<ImageId>
  {
    if |images| == 0 then []
    else (if images[0] in known then [] else [images[0]]) + NewIds(known, images[1..])
  }

  /** Reference: the `limit` ids ending at index `j` are all known. */
  predicate KnownWindow(known: set<ImageId>, images: seq<ImageId>, limit: int, j: int)
  {
    0 <= j < |images| && limit <= j + 1
    && forall i :: j + 1 - limit <= i <= j ==> images[i] in known
  }

  /** `KnownWindow` for a walk that had already seen `count` known ids in a
      row: the window may reach back into those. */
  predicate KnownWindowAfter(known: set<ImageId>, images: seq<ImageId>, limit: int,
                             count: nat, j: int)
  {
    0 <= j < |images| && limit <= count + j + 1
    && forall i :: 0 <= i && j + 1 - limit <= i <= j ==> images[i] in known
  }

  /** A window ending at `j >= 1` is a window ending at `j - 1` once the
      first id has been consumed and the counter moved accordingly. */
  lemma WindowShift(known: set<ImageId>, images: seq<ImageId>, limit: int, count: nat, j: int)
    requires 0 <= count < limit && 1 <= j < |images|
    requires !(images[0] in known && count + 1 == limit)
    ensures var count' := if images[0] in known then count + 1 else 0;
            KnownWindowAfter(known, images, limit, count, j)
            <==> KnownWindowAfter(known, images[1..], limit, count', j - 1)
  {
    var x, rest := images[0], images[1..];
    var count' := if x in known then count + 1 else 0;
    if KnownWindowAfter(known, rest, limit, count', j - 1) {
      forall i | 0 <= i && j + 1 - limit <= i <= j ensures images[i] in known {
        if i > 0 {
          assert images[i] == rest[i - 1];
        }
      }
    }
    if KnownWindowAfter(known, images, limit, count, j) {
      forall i | 0 <= i && j - limit <= i <= j - 1 ensures rest[i] in known {
        assert images[i + 1] == rest[i];
      }
      if x !in known {
        assert !(j + 1 - limit <= 0);
      }
    }
  }

  /** The walk against the reference, for a positive limit and a walk that
      already saw `count < limit` known ids in a row. */
  lemma {:induction false} DedupFromCharacterised(known: set<ImageId>, limit: int,
                                                  images: seq<ImageId>, count: nat)
    requires 0 <= count < limit
    ensures (forall j :: 0 <= j < |images| ==> !KnownWindowAfter(known, images, limit, count, j))
            ==> DedupFrom(known, limit, images, count) == NewIds(known, images)
    ensures forall j :: KnownWindowAfter(known, images, limit, count, j)
                        && (forall i :: 0 <= i < j ==> !KnownWindowAfter(known, images, limit, count, i))
                        ==> DedupFrom(known, limit, images, count) == NewIds(known, images[..j + 1])
    decreases |images|
  {
    if |images| > 0 {
      var x := images[0];
      var rest := images[1..];
      if x in known && count + 1 == limit {
        assert KnownWindowAfter(known, images, limit, count, 0);
        assert images[..1] == [x];
        assert NewIds(known, [x]) == [];
      } else {
        var count' := if x in known then count + 1 else 0;
        DedupFromCharacterised(known, limit, rest, count');
        forall j | 1 <= j < |images|
          ensures KnownWindowAfter(known, images, limit, count, j)
                  <==> KnownWindowAfter(known, rest, limit, count', j - 1)
        {
          WindowShift(known, images, limit, count, j);
        }
        assert !KnownWindowAfter(known, images, limit, count, 0);
        assert DedupFrom(known, limit, images, count)
            == (if x in known then [] else [x]) + DedupFrom(known, limit, rest, count');
        forall j | KnownWindowAfter(known, images, limit, count, j)
                   && (forall i :: 0 <= i < j ==> !KnownWindowAfter(known, images, limit, count, i))
          ensures DedupFrom(known, limit, images, count) == NewIds(known, images[..j + 1])
        {
          assert j >= 1;
          assert KnownWindowAfter(known, rest, limit, count', j - 1);
          forall i | 0 <= i < j - 1 ensures !KnownWindowAfter(known, rest, limit, count', i) {
            assert !KnownWindowAfter(known, images, limit, count, i + 1);
          }
          assert images[..j + 1][1..] == rest[..j];
          assert images[..j + 1][0] == x;
        }
        if forall j :: 0 <= j < |images| ==> !KnownWindowAfter(known, images, limit, count, j) {
          forall j | 0 <= j < |rest| ensures !KnownWindowAfter(known, rest, limit, count', j) {
            assert !KnownWindowAfter(known, images, limit, count, j + 1);
          }
        }
      }
    }
  }

  /** With a falsy limit (or a negative one, which the counter never
      reaches) the result is exactly the new ids, in input order. */
  lemma {:induction false} NoLimitKeepsAllNew(known: set<ImageId>, limit: int,
                                              images: seq<ImageId>, count: nat)
    requires limit <= 0
    ensures DedupFrom(known, limit, images, count) == NewIds(known, images)
    decreases |images|
  {
    if |images| > 0 {
      NoLimitKeepsAllNew(known, limit, images[1..], if images[0] in known then count + 1 else 0);
    }
  }

  /** With a positive limit the result is the new ids up to the first point
      where the last `limit` ids were all known; if there is no such point,
      all the new ids. */
  lemma PositiveLimit(known: set<ImageId>, limit: int, images: seq<ImageId>)
    requires limit > 0
    ensures (forall j :: 0 <= j < |images| ==> !KnownWindow(known, images, limit, j))
            ==> ProcessListWithDb(known, limit, images) == NewIds(known, images)
    ensures forall j :: KnownWindow(known, images, limit, j)
                        && (forall i :: 0 <= i < j ==> !KnownWindow(known, images, limit, i))
                        ==> ProcessListWithDb(known, limit, images) == NewIds(known, images[..j + 1])
  {
    DedupFromCharacterised(known, limit, images, 0);
    forall j ensures KnownWindow(known, images, limit, j)
                     <==> KnownWindowAfter(known, images, limit, 0, j) { }
  }

  /** The result keeps input order; by the function's contract it holds no
      id already downloaded. */
  lemma {:induction false} DedupSubseq(known: set<ImageId>, limit: int, images: seq<ImageId>,
                                       count: nat)
    ensures IsSubseq(DedupFrom(known, limit, images, count), images)
    decreases |images|
  {
    if |images| > 0 {
      var x := images[0];
      var count' := if x in known then count + 1 else 0;
      var rest := DedupFrom(known, limit, images[1..], count');
      DedupSubseq(known, limit, images[1..], count');
      assert [x] + images[1..] == images;
      if limit != 0 && count' == limit {
      } else if x in known {
        assert DedupFrom(known, limit, images, count) == rest;
        SubseqSkip(rest, x, images[1..]);
      } else {
        SubseqCons(x, rest, images[1..]);
      }
    }
  }

  /** Worked example: known A, B, new C, known D, E, F with limit 3; the
      counter runs 1, 2, 0, 1, 2, 3 and the walk stops at F, so a new G after
      it is never reached. */
  lemma LimitExample()
    ensures ProcessListWithDb({1, 2, 4, 5, 6}, 3, [1, 2, 3, 4, 5, 6, 7]) == [3]
  {
  }
}

=== FILE: ids.dfy ===
/** Identifiers shared by the content filter and the download-database
    gate. */
module Ids {
  /** The numeric id of one image. */
  type ImageId = int
}

=== FILE: process_list.dfy ===
/** `process_list`: acquire the work list, reconcile it with the ignore
    list, then drive every work item through the retry loop, recording
    what happens as a trace of events. */
module ProcessList {
  import opened Reconciliation
  import opened Retry
  import opened Seqs

  /** The progress prefix "[current of total] " the loop computes before
      every call. The member handler receives it as its title prefix; the
      tag handler is called without it. */
  datatype Progress = Progress(current: nat, total: nat)

  /** What the loop does that can be observed from outside. */
  datatype Event =
    | Attempted(position: nat, memberId: MemberId, progress: Progress, retryCount: nat)
        // one handler call for the work item at `position`, with the
        // prefix computed for it (passed on only in member mode)
    | DownloadDateUpdated(memberId: MemberId)
        // the last-download date is stored after a tag search succeeded
    | GivenUp(memberId: MemberId)
        // the item exhausted its retries
    | HistoryCleared
        // the browser history is cleared after the item

  /** `handler(i)` is the outcome stream of the calls for the i-th work item. */
  type Handler = nat -> Stream

  /** A trace and whether a keyboard interrupt ended it. */
  datatype Run = Run(trace: seq<Event>, cancelled: bool)

  /** How each of the first `n` work items settles: every item enters the
      retry loop with `retry_count = 0`, and what happens to it depends on
      its own outcome stream only. */
  function Plan(retry: int, handler: Handler, n: nat): (plan: seq<Settlement>)
    ensures |plan| == n
    ensures forall i :: 0 <= i < n ==> plan[i] == Settle(retry, handler(i), 0)
  {
    seq(n, i requires 0 <= i < n => Settle(retry, handler(i), 0))
  }

  /** The number of items before position `j` whose handler succeeded. */
  function SucceededBefore(plan: seq<Settlement>, j: nat): (n: nat)
    requires j <= |plan|
    ensures n <= j
  {
    if j == 0 then 0
    else SucceededBefore(plan, j - 1) + (if plan[j - 1].end == Succeeded then 1 else 0)
  }

  /** The number of items before position `j` that were given up. */
  function GaveUpBefore(plan: seq<Settlement>, j: nat): (n: nat)
    requires j <= |plan|
    ensures n <= j
  {
    if j == 0 then 0
    else GaveUpBefore(plan, j - 1) + (if plan[j - 1].end == GaveUp then 1 else 0)
  }

  /** The handler calls for one item, with `retry_count` 0, 1, 2, ... */
  function Attempts(pos: nat, id: MemberId, p: Progress, calls: nat): (r: seq<Event>)
    ensures |r| == calls
    ensures forall c :: 0 <= c < calls ==> r[c] == Attempted(pos, id, p, c)
  {
    if calls == 0 then []
    else Attempts(pos, id, p, calls - 1) + [Attempted(pos, id, p, calls - 1)]
  }

  /** What follows the calls of one item: the date update (tag mode) after
      a success or the give-up message, then the history reset. An interrupt
      propagates out of the loop before the reset. */
  function Epilogue(id: MemberId, end: ItemEnd, tagMode: bool): seq<Event>
  {
    match end
    case Succeeded => (if tagMode then [DownloadDateUpdated(id)] else []) + [HistoryCleared]
    case GaveUp => [GivenUp(id), HistoryCleared]
    case Interrupted => []
  }

  /** The events of one item: its calls, then its epilogue. */
  function ItemEvents(pos: nat, item: ListItem, p: Progress, s: Settlement, tagMode: bool): seq<Event>
  {
    Attempts(pos, item.memberId, p, s.calls) + Epilogue(item.memberId, s.end, tagMode)
  }

  /** The `for item in result` loop from position `pos` on, with
      `current_member - 1 == succeeded`; `plan[i]` is how item `i` settles. */
  function RunFrom(items: seq<ListItem>, plan: seq<Settlement>, tagMode: bool,
                   pos: nat, succeeded: nat): Run
    requires |plan| == |items| && pos <= |items|
    decreases |items| - pos
  {
    if pos == |items| then Run([], false)
    else
      var s := plan[pos];
      var ev := ItemEvents(pos, items[pos], Progress(succeeded + 1, |items|), s, tagMode);
      if s.end == Interrupted then Run(ev, true)
      else
        var rest := RunFrom(items, plan, tagMode, pos + 1,
                            succeeded + (if s.end == Succeeded then 1 else 0));
        Run(ev + rest.trace, rest.cancelled)
  }

  /** The trace of the loop from position `pos` on, entered after the items
      before it ran as planned. */
  function TraceFrom(items: seq<ListItem>, plan: seq<Settlement>, tagMode: bool, pos: nat): seq<Event>
    requires |plan| == |items| && pos <= |items|
  {
    RunFrom(items, plan, tagMode, pos, SucceededBefore(plan, pos)).trace
  }

  /** The whole loop: `current_member` starts at 1. A keyboard interrupt
      from any item's handler ends it, and nothing else does. */
  function RunItems(items: seq<ListItem>, retry: int, handler: Handler, tagMode: bool): (r: Run)
    ensures r.cancelled <==>
              exists i :: 0 <= i < |items| && Settle(retry, handler(i), 0).end == Interrupted
  {
    RunCancelledIff(items, Plan(retry, handler, |items|), tagMode, 0, 0);
    RunFrom(items, Plan(retry, handler, |items|), tagMode, 0, 0)
  }

  /** An attempt event agrees with the reference: it names the item at its
      position, carries the prefix computed for the call, "[s+1 of N]" with s
      the number of earlier items that succeeded, and a retry count within
      the item's calls. */
  predicate WellPlaced(items: seq<ListItem>, plan: seq<Settlement>, e: Event)
    requires |plan| == |items|
  {
    e.Attempted? ==>
      && e.position < |items|
      && e.memberId == items[e.position].memberId
      && e.progress == Progress(SucceededBefore(plan, e.position) + 1, |items|)
      && e.retryCount < plan[e.position].calls
  }

  /** Every attempt event of `t` is well placed and belongs to an item at
      or after `pos`. */
  predicate AllWellPlaced(items: seq<ListItem>, plan: seq<Settlement>, t: seq<Event>, pos: nat)
    requires |plan| == |items|
  {
    forall k :: 0 <= k < |t| ==>
      WellPlaced(items, plan, t[k]) && (t[k].Attempted? ==> t[k].position >= pos)
  }

  /** No item in `[from, to)` was interrupted. */
  predicate NoInterruptBetween(plan: seq<Settlement>, from: nat, to: nat)
  {
    to <= |plan| && forall i :: from <= i < to ==> plan[i].end != Interrupted
  }

  /** Every attempt event of `t` is for an item reached from `pos` without
      passing an interrupted item. */
  predicate AttemptsBeforeInterrupt(plan: seq<Settlement>, t: seq<Event>, pos: nat)
  {
    forall k :: 0 <= k < |t| && t[k].Attempted? ==> NoInterruptBetween(plan, pos, t[k].position)
  }

  /** The last event of `t` is a call, the last one its item got, and that
      item was interrupted. */
  predicate EndsWithInterrupt(plan: seq<Settlement>, t: seq<Event>)
  {
    && |t| > 0
    && t[|t| - 1].Attempted?
    && t[|t| - 1].position < |plan|
    && plan[t[|t| - 1].position].end == Interrupted
    && t[|t| - 1].retryCount == plan[t[|t| - 1].position].calls - 1
  }

  /** Call `a` comes before call `b` in the loop's order: an earlier
      position, or the same position with a lower retry count. */
  predicate Precedes(a: Event, b: Event)
    requires a.Attempted? && b.Attempted?
  {
    a.position < b.position || (a.position == b.position && a.retryCount < b.retryCount)
  }

  /** The calls of `t` appear in strictly increasing (position, retry count)
      order. */
  predicate InOrder(t: seq<Event>)
  {
    forall k1, k2 :: 0 <= k1 < k2 < |t| && t[k1].Attempted? && t[k2].Attempted? ==>
      Precedes(t[k1], t[k2])
  }

  /** Between a call for one item and a later call for another item of `t`
      the history is reset. */
  predicate ResetBetweenItems(t: seq<Event>)
  {
    forall k1, k2 :: 0 <= k1 < k2 < |t| && t[k1].Attempted? && t[k2].Attempted?
                     && t[k1].position != t[k2].position ==>
      exists m :: k1 < m < k2 && t[m] == HistoryCleared
  }

  /** The events `ev` occur in `t` as one contiguous block starting at
      index `a`. */
  predicate BlockAt(t: seq<Event>, ev: seq<Event>, a: nat)
  {
    a + |ev| <= |t| && t[a..a + |ev|] == ev
  }

  /** The events `ev` occur somewhere in `t` as one contiguous block. */
  predicate Contiguous(t: seq<Event>, ev: seq<Event>)
  {
    exists a :: 0 <= a <= |t| && BlockAt(t, ev, a)
  }

  /** Every item of `items` reached without passing an interrupted item
      contributes its events to `t` as one contiguous block. */
  predicate ItemsContiguous(items: seq<ListItem>, plan: seq<Settlement>, tagMode: bool, t: seq<Event>)
    requires |plan| == |items|
  {
    forall j :: 0 <= j < |items| && NoInterruptBetween(plan, 0, j) ==>
      Contiguous(t, ItemEvents(j, items[j], Progress(SucceededBefore(plan, j) + 1, |items|),
                               plan[j], tagMode))
  }

  /** Every call of `t` is for an item after position `pos`. */
  predicate AttemptsAfter(t: seq<Event>, pos: nat)
  {
    forall k :: 0 <= k < |t| && t[k].Attempted? ==> t[k].position > pos
  }

  /** The kinds of event that are counted: history resets, date updates,
      give-ups, and the calls for the item at one position. */
  datatype Kind = ClearKind | UpdateKind | GiveUpKind | AttemptKind(position: nat)

  predicate IsKind(e: Event, kind: Kind)
  {
    match kind
    case ClearKind => e == HistoryCleared
    case UpdateKind => e.DownloadDateUpdated?
    case GiveUpKind => e.GivenUp?
    case AttemptKind(j) => e.Attempted? && e.position == j
  }

  /** The number of events of one kind in a trace. */
  function Count(t: seq<Event>, kind: Kind): nat
  {
    if |t| == 0 then 0
    else (if IsKind(t[0], kind) then 1 else 0) + Count(t[1..], kind)
  }

  lemma {:induction false} CountAppend(a: seq<Event>, b: seq<Event>, kind: Kind)
    ensures Count(a + b, kind) == Count(a, kind) + Count(b, kind)
    decreases |a|
  {
    if |a| > 0 {
      assert (a + b)[1..] == a[1..] + b;
      CountAppend(a[1..], b, kind);
    } else {
      assert a + b == b;
    }
  }

  /** A trace without an event of some kind counts zero of it. */
  lemma {:induction false} CountNone(t: seq<Event>, kind: Kind)
    requires forall k :: 0 <= k < |t| ==> !IsKind(t[k], kind)
    ensures Count(t, kind) == 0
    decreases |t|
  {
    if |t| > 0 {
      assert forall k :: 0 <= k < |t[1..]| ==> t[1..][k] == t[k + 1];
      CountNone(t[1..], kind);
    }
  }

  /** The calls of an item contain no epilogue event. */
  lemma {:induction false} AttemptsUncounted(pos: nat, id: MemberId, p: Progress, calls: nat, kind: Kind)
    requires !kind.AttemptKind?
    ensures Count(Attempts(pos, id, p, calls), kind) == 0
    decreases calls
  {
    if calls > 0 {
      var a := Attempts(pos, id, p, calls - 1);
      AttemptsUncounted(pos, id, p, calls - 1, kind);
      CountAppend(a, [Attempted(pos, id, p, calls - 1)], kind);
      assert Count([Attempted(pos, id, p, calls - 1)], kind) == Count([], kind);
    }
  }

  /** The calls of the item at `pos` count `calls` for that position and
      none for any other. */
  lemma {:induction false} AttemptsCounted(pos: nat, id: MemberId, p: Progress, calls: nat, j: nat)
    ensures Count(Attempts(pos, id, p, calls), AttemptKind(j)) == if j == pos then calls else 0
    decreases calls
  {
    if calls > 0 {
      var a := Attempts(pos, id, p, calls - 1);
      var last := [Attempted(pos, id, p, calls - 1)];
      AttemptsCounted(pos, id, p, calls - 1, j);
      CountAppend(a, last, AttemptKind(j));
      assert Count(last, AttemptKind(j)) == (if j == pos then 1 else 0) + Count([], AttemptKind(j));
    }
  }

  /** An epilogue holds a give-up event exactly when the item was given up. */
  lemma EpilogueGiveUps(id: MemberId, end: ItemEnd, tagMode: bool)
    ensures Count(Epilogue(id, end, tagMode), GiveUpKind) == if end == GaveUp then 1 else 0
  {
    var e := Epilogue(id, end, tagMode);
    if end == Succeeded && tagMode {
      assert e[1..] == [HistoryCleared];
      assert Count(e, GiveUpKind) == Count([HistoryCleared], GiveUpKind);
    } else if end == Succeeded {
      assert Count(e, GiveUpKind) == Count([], GiveUpKind);
    } else if end == GaveUp {
      assert e[1..] == [HistoryCleared];
      assert Count(e, GiveUpKind) == 1 + Count([HistoryCleared], GiveUpKind);
    }
  }

  /** An epilogue holds no call and, unless the item was interrupted, one
      history reset; it holds a date update exactly after a success in tag
      mode. */
  lemma EpilogueShape(id: MemberId, end: ItemEnd, tagMode: bool)
    ensures var e := Epilogue(id, end, tagMode);
            && (forall k :: 0 <= k < |e| ==> !e[k].Attempted?)
            && (end == Interrupted <==> e == [])
            && Count(e, ClearKind) == (if end == Interrupted then 0 else 1)
            && Count(e, UpdateKind) == (if end == Succeeded && tagMode then 1 else 0)
  {
    var e := Epilogue(id, end, tagMode);
    if end == Succeeded && tagMode {
      assert e == [DownloadDateUpdated(id), HistoryCleared];
      assert e[1..] == [HistoryCleared];
      assert Count(e, ClearKind) == Count([HistoryCleared], ClearKind);
      assert Count(e, UpdateKind) == 1 + Count([HistoryCleared], UpdateKind);
    } else if end == Succeeded {
      assert e == [HistoryCleared];
      assert Count(e, ClearKind) == 1 + Count([], ClearKind);
      assert Count(e, UpdateKind) == Count([], UpdateKind);
    } else if end == GaveUp {
      assert e[1..] == [HistoryCleared];
      assert Count(e, ClearKind) == Count([HistoryCleared], ClearKind);
      assert Count(e, UpdateKind) == Count([HistoryCleared], UpdateKind);
    }
  }

  /** One step of the loop: the item at `pos` contributes its events, and
      unless it was interrupted the rest of the loop follows. */
  lemma RunStep(items: seq<ListItem>, plan: seq<Settlement>, tagMode: bool, pos: nat, succeeded: nat)
    requires |plan| == |items| && pos < |items|
    ensures var s := plan[pos];
            var ev := ItemEvents(pos, items[pos], Progress(succeeded + 1, |items|), s, tagMode);
            var rest := RunFrom(items, plan, tagMode, pos + 1,
                                succeeded + (if s.end == Succeeded then 1 else 0));
            RunFrom(items, plan, tagMode, pos, succeeded)
            == if s.end == Interrupted then Run(ev, true) else Run(ev + rest.trace, rest.cancelled)
  {
  }

  /** The attempt events of one item are well placed when the prefix counts
      the items before it that succeeded. */
  lemma ItemWellPlaced(items: seq<ListItem>, plan: seq<Settlement>, tagMode: bool, pos: nat)
    requires |plan| == |items| && pos < |items|
    ensures AllWellPlaced(items, plan,
                          ItemEvents(pos, items[pos], Progress(SucceededBefore(plan, pos) + 1, |items|),
                                     plan[pos], tagMode),
                          pos)
  {
    var s := plan[pos];
    var p := Progress(SucceededBefore(plan, pos) + 1, |items|);
    var att: seq<Event> := Attempts(pos, items[pos].memberId, p, s.calls);
    var epi: seq<Event> := Epilogue(items[pos].memberId, s.end, tagMode);
    var ev: seq<Event> := att + epi;
    EpilogueShape(items[pos].memberId, s.end, tagMode);
    forall k | 0 <= k < |ev|
      ensures WellPlaced(items, plan, ev[k]) && (ev[k].Attempted? ==> ev[k].position >= pos)
    {
      if k < |att| {
        assert ev[k] == Attempted(pos, items[pos].memberId, p, k);
      } else {
        assert ev[k] == epi[k - |att|];
      }
    }
  }

  /** Well-placed events for `pos` followed by well-placed events from `pos + 1`
      are well placed from `pos`. */
  lemma AllWellPlacedAppend(items: seq<ListItem>, plan: seq<Settlement>,
                            a: seq<Event>, b: seq<Event>, pos: nat)
    requires |plan| == |items|
    requires AllWellPlaced(items, plan, a, pos)
    requires AllWellPlaced(items, plan, b, pos + 1)
    ensures AllWellPlaced(items, plan, a + b, pos)
  {
    forall k | 0 <= k < |a + b|
      ensures WellPlaced(items, plan, (a + b)[k])
              && ((a + b)[k].Attempted? ==> (a + b)[k].position >= pos)
    {
      if k < |a| {
        assert (a + b)[k] == a[k];
      } else {
        assert (a + b)[k] == b[k - |a|];
      }
    }
  }

  /** Every attempt event of the run names the item at its position, the
      progress prefix computed for it, "[s+1 of N]" with s the number of
      earlier items that succeeded, and a retry count below the item's
      number of calls. */
  lemma {:induction false} RunWellPlaced(items: seq<ListItem>, plan: seq<Settlement>, tagMode: bool,
                                         pos: nat)
    requires |plan| == |items| && pos <= |items|
    ensures AllWellPlaced(items, plan, TraceFrom(items, plan, tagMode, pos), pos)
    decreases |items| - pos
  {
    if pos < |items| {
      if plan[pos].end != Interrupted {
        RunWellPlaced(items, plan, tagMode, pos + 1);
      }
      WellPlacedStep(items, plan, tagMode, pos);
    }
  }

  /** The item at `pos` keeps the trace from `pos + 1` well placed. */
  lemma WellPlacedStep(items: seq<ListItem>, plan: seq<Settlement>, tagMode: bool, pos: nat)
    requires |plan| == |items| && pos < |items|
    requires plan[pos].end != Interrupted ==>
               AllWellPlaced(items, plan, TraceFrom(items, plan, tagMode, pos + 1), pos + 1)
    ensures AllWellPlaced(items, plan, TraceFrom(items, plan, tagMode, pos), pos)
  {
    var sb := SucceededBefore(plan, pos);
    var ev := ItemEvents(pos, items[pos], Progress(sb + 1, |items|), plan[pos], tagMode);
    ItemWellPlaced(items, plan, tagMode, pos);
    if plan[pos].end == Interrupted {
      RunStep(items, plan, tagMode, pos, sb);
    } else {
      TraceStep(items, plan, tagMode, pos);
      AllWellPlacedAppend(items, plan, ev, TraceFrom(items, plan, tagMode, pos + 1), pos);
    }
  }

  /** The run is cancelled iff some item's handler raised a keyboard
      interrupt before giving up. */
  lemma {:induction false} RunCancelledIff(items: seq<ListItem>, plan: seq<Settlement>, tagMode: bool,
                                           pos: nat, succeeded: nat)
    requires |plan| == |items| && pos <= |items|
    ensures RunFrom(items, plan, tagMode, pos, succeeded).cancelled
            <==> !NoInterruptBetween(plan, pos, |items|)
    decreases |items| - pos
  {
    if pos < |items| && plan[pos].end != Interrupted {
      RunCancelledIff(items, plan, tagMode, pos + 1,
                      succeeded + (if plan[pos].end == Succeeded then 1 else 0));
    }
  }

  /** Calls for a non-interrupted `pos` followed by calls reached from
      `pos + 1` are all reached from `pos` without an interrupt. */
  lemma BeforeInterruptAppend(plan: seq<Settlement>, a: seq<Event>, b: seq<Event>, pos: nat)
    requires pos < |plan| && plan[pos].end != Interrupted
    requires forall k :: 0 <= k < |a| && a[k].Attempted? ==> a[k].position == pos
    requires AttemptsBeforeInterrupt(plan, b, pos + 1)
    ensures AttemptsBeforeInterrupt(plan, a + b, pos)
  {
    forall k | 0 <= k < |a + b| && (a + b)[k].Attempted?
      ensures NoInterruptBetween(plan, pos, (a + b)[k].position)
    {
      if k >= |a| {
        var q := b[k - |a|].position;
        assert (a + b)[k] == b[k - |a|];
        assert NoInterruptBetween(plan, pos + 1, q);
        forall i | pos <= i < q ensures plan[i].end != Interrupted {
          if i > pos {
            assert pos + 1 <= i < q;
          }
        }
      } else {
        assert (a + b)[k] == a[k];
      }
    }
  }

  /** Every attempt event of one item's events is for that item. */
  lemma ItemEventsPosition(pos: nat, item: ListItem, p: Progress, s: Settlement, tagMode: bool)
    ensures var ev := ItemEvents(pos, item, p, s, tagMode);
            forall k :: 0 <= k < |ev| && ev[k].Attempted? ==> ev[k].position == pos
  {
    var att: seq<Event> := Attempts(pos, item.memberId, p, s.calls);
    var epi: seq<Event> := Epilogue(item.memberId, s.end, tagMode);
    var ev: seq<Event> := att + epi;
    EpilogueShape(item.memberId, s.end, tagMode);
    forall k | 0 <= k < |ev|
      ensures ev[k].Attempted? ==> ev[k].position == pos
    {
      if k >= |att| {
        assert ev[k] == epi[k - |att|];
      }
    }
  }

  /** No item after an interrupted one is attempted. */
  lemma {:induction false} RunStopsAtInterrupt(items: seq<ListItem>, plan: seq<Settlement>,
                                               tagMode: bool, pos: nat, succeeded: nat)
    requires |plan| == |items| && pos <= |items|
    ensures AttemptsBeforeInterrupt(plan, RunFrom(items, plan, tagMode, pos, succeeded).trace, pos)
    decreases |items| - pos
  {
    if pos < |items| {
      var s := plan[pos];
      var p := Progress(succeeded + 1, |items|);
      var ev := ItemEvents(pos, items[pos], p, s, tagMode);
      var t := RunFrom(items, plan, tagMode, pos, succeeded).trace;
      ItemEventsPosition(pos, items[pos], p, s, tagMode);
      RunStep(items, plan, tagMode, pos, succeeded);
      if s.end == Interrupted {
        assert t == ev;
      } else {
        var succ' := succeeded + (if s.end == Succeeded then 1 else 0);
        var rest := RunFrom(items, plan, tagMode, pos + 1, succ').trace;
        assert t == ev + rest;
        RunStopsAtInterrupt(items, plan, tagMode, pos + 1, succ');
        BeforeInterruptAppend(plan, ev, rest, pos);
      }
    }
  }

  /** Appending a trace that ends with an interrupt keeps that ending. */
  lemma EndsWithInterruptAppend(plan: seq<Settlement>, a: seq<Event>, b: seq<Event>)
    requires EndsWithInterrupt(plan, b)
    ensures EndsWithInterrupt(plan, a + b)
  {
    assert (a + b)[|a + b| - 1] == b[|b| - 1];
  }

  /** The events of an interrupted item end with its last call. */
  lemma InterruptedItemEnds(items: seq<ListItem>, plan: seq<Settlement>, tagMode: bool,
                            pos: nat, p: Progress)
    requires |plan| == |items| && pos < |items|
    requires plan[pos].end == Interrupted && plan[pos].calls >= 1
    ensures EndsWithInterrupt(plan, ItemEvents(pos, items[pos], p, plan[pos], tagMode))
  {
    var s := plan[pos];
    var att := Attempts(pos, items[pos].memberId, p, s.calls);
    assert Epilogue(items[pos].memberId, s.end, tagMode) == [];
    assert att + [] == att;
    assert att[|att| - 1] == Attempted(pos, items[pos].memberId, p, s.calls - 1);
  }

  /** A cancelled trace ends with the interrupted call itself, its last
      retry count, and nothing after it: no history reset, no later item. */
  lemma {:induction false} RunEndsWithInterrupt(items: seq<ListItem>, plan: seq<Settlement>,
                                                tagMode: bool, pos: nat, succeeded: nat)
    requires |plan| == |items| && pos <= |items|
    requires forall i :: 0 <= i < |plan| ==> plan[i].calls >= 1
    requires RunFrom(items, plan, tagMode, pos, succeeded).cancelled
    ensures EndsWithInterrupt(plan, RunFrom(items, plan, tagMode, pos, succeeded).trace)
    decreases |items| - pos
  {
    var s := plan[pos];
    var p := Progress(succeeded + 1, |items|);
    var ev := ItemEvents(pos, items[pos], p, s, tagMode);
    var t := RunFrom(items, plan, tagMode, pos, succeeded).trace;
    RunStep(items, plan, tagMode, pos, succeeded);
    if s.end == Interrupted {
      assert t == ev;
      InterruptedItemEnds(items, plan, tagMode, pos, p);
    } else {
      var succ' := succeeded + (if s.end == Succeeded then 1 else 0);
      var rest := RunFrom(items, plan, tagMode, pos + 1, succ').trace;
      assert t == ev + rest;
      RunEndsWithInterrupt(items, plan, tagMode, pos + 1, succ');
      EndsWithInterruptAppend(plan, ev, rest);
    }
  }

  /** The epilogue events one item contributes, by kind. */
  lemma ItemCounts(pos: nat, item: ListItem, p: Progress, s: Settlement, tagMode: bool)
    ensures var ev := ItemEvents(pos, item, p, s, tagMode);
            && Count(ev, ClearKind) == (if s.end == Interrupted then 0 else 1)
            && Count(ev, UpdateKind) == (if s.end == Succeeded && tagMode then 1 else 0)
  {
    var att := Attempts(pos, item.memberId, p, s.calls);
    var epi := Epilogue(item.memberId, s.end, tagMode);
    EpilogueShape(item.memberId, s.end, tagMode);
    AttemptsUncounted(pos, item.memberId, p, s.calls, ClearKind);
    AttemptsUncounted(pos, item.memberId, p, s.calls, UpdateKind);
    CountAppend(att, epi, ClearKind);
    CountAppend(att, epi, UpdateKind);
  }

  lemma {:induction false} SucceededMonotone(plan: seq<Settlement>, i: nat, j: nat)
    requires i <= j <= |plan|
    ensures SucceededBefore(plan, i) <= SucceededBefore(plan, j)
    decreases j - i
  {
    if i < j {
      SucceededMonotone(plan, i, j - 1);
    }
  }

  /** A run that is not cancelled resets the history once per item, and in
      tag mode stores the download date once per item that succeeded (never
      outside tag mode). */
  lemma {:induction false} RunCounts(items: seq<ListItem>, plan: seq<Settlement>, tagMode: bool,
                                     pos: nat, succeeded: nat)
    requires |plan| == |items| && pos <= |items|
    requires !RunFrom(items, plan, tagMode, pos, succeeded).cancelled
    ensures var t := RunFrom(items, plan, tagMode, pos, succeeded).trace;
            && Count(t, ClearKind) == |items| - pos
            && Count(t, UpdateKind)
               == (if tagMode then SucceededBefore(plan, |items|) - SucceededBefore(plan, pos) else 0)
    decreases |items| - pos
  {
    if pos < |items| {
      var s := plan[pos];
      var p := Progress(succeeded + 1, |items|);
      var succ' := succeeded + (if s.end == Succeeded then 1 else 0);
      CountsStep(items, plan, tagMode, pos, succeeded, ClearKind);
      CountsStep(items, plan, tagMode, pos, succeeded, UpdateKind);
      RunCounts(items, plan, tagMode, pos + 1, succ');
      ItemCounts(pos, items[pos], p, s, tagMode);
      assert SucceededBefore(plan, pos + 1) == SucceededBefore(plan, pos) + (succ' - succeeded);
      SucceededMonotone(plan, pos + 1, |items|);
    }
  }

  /** The count of a kind over the trace from `pos` splits into the item at
      `pos` and the rest, when that item was not interrupted. */
  lemma CountsStep(items: seq<ListItem>, plan: seq<Settlement>, tagMode: bool,
                   pos: nat, succeeded: nat, kind: Kind)
    requires |plan| == |items| && pos < |items|
    requires !RunFrom(items, plan, tagMode, pos, succeeded).cancelled
    ensures plan[pos].end != Interrupted
    ensures !RunFrom(items, plan, tagMode, pos + 1,
                     succeeded + (if plan[pos].end == Succeeded then 1 else 0)).cancelled
    ensures Count(RunFrom(items, plan, tagMode, pos, succeeded).trace, kind)
            == Count(ItemEvents(pos, items[pos], Progress(succeeded + 1, |items|), plan[pos], tagMode), kind)
               + Count(RunFrom(items, plan, tagMode, pos + 1,
                               succeeded + (if plan[pos].end == Succeeded then 1 else 0)).trace, kind)
  {
    RunStep(items, plan, tagMode, pos, succeeded);
    CountAppend(ItemEvents(pos, items[pos], Progress(succeeded + 1, |items|), plan[pos], tagMode),
                RunFrom(items, plan, tagMode, pos + 1,
                        succeeded + (if plan[pos].end == Succeeded then 1 else 0)).trace, kind);
  }

  /** One item's events hold one give-up event iff the item was given up. */
  lemma ItemGiveUps(pos: nat, item: ListItem, p: Progress, s: Settlement, tagMode: bool)
    ensures Count(ItemEvents(pos, item, p, s, tagMode), GiveUpKind) == if s.end == GaveUp then 1 else 0
  {
    var att := Attempts(pos, item.memberId, p, s.calls);
    var epi := Epilogue(item.memberId, s.end, tagMode);
    EpilogueGiveUps(item.memberId, s.end, tagMode);
    AttemptsUncounted(pos, item.memberId, p, s.calls, GiveUpKind);
    CountAppend(att, epi, GiveUpKind);
  }

  /** One item's events hold exactly its calls for its own position, and no
      call for any other position. */
  lemma ItemAttemptCount(pos: nat, item: ListItem, p: Progress, s: Settlement, tagMode: bool, j: nat)
    ensures Count(ItemEvents(pos, item, p, s, tagMode), AttemptKind(j)) == if j == pos then s.calls else 0
  {
    var att := Attempts(pos, item.memberId, p, s.calls);
    var epi := Epilogue(item.memberId, s.end, tagMode);
    EpilogueShape(item.memberId, s.end, tagMode);
    CountNone(epi, AttemptKind(j));
    AttemptsCounted(pos, item.memberId, p, s.calls, j);
    CountAppend(att, epi, AttemptKind(j));
  }

  /** A run that is not cancelled holds one give-up event per item given up. */
  lemma {:induction false} RunGiveUps(items: seq<ListItem>, plan: seq<Settlement>, tagMode: bool,
                                      pos: nat, succeeded: nat)
    requires |plan| == |items| && pos <= |items|
    requires !RunFrom(items, plan, tagMode, pos, succeeded).cancelled
    ensures Count(RunFrom(items, plan, tagMode, pos, succeeded).trace, GiveUpKind)
            == GaveUpBefore(plan, |items|) - GaveUpBefore(plan, pos)
    decreases |items| - pos
  {
    if pos < |items| {
      var s := plan[pos];
      var succ' := succeeded + (if s.end == Succeeded then 1 else 0);
      CountsStep(items, plan, tagMode, pos, succeeded, GiveUpKind);
      RunGiveUps(items, plan, tagMode, pos + 1, succ');
      ItemGiveUps(pos, items[pos], Progress(succeeded + 1, |items|), s, tagMode);
      assert GaveUpBefore(plan, pos + 1) == GaveUpBefore(plan, pos) + (if s.end == GaveUp then 1 else 0);
      GaveUpMonotone(plan, pos + 1, |items|);
    }
  }

  lemma {:induction false} GaveUpMonotone(plan: seq<Settlement>, i: nat, j: nat)
    requires i <= j <= |plan|
    ensures GaveUpBefore(plan, i) <= GaveUpBefore(plan, j)
    decreases j - i
  {
    if i < j {
      GaveUpMonotone(plan, i, j - 1);
    }
  }

  /** The trace from `pos + 1` holds no call for the item at `pos`. */
  lemma NoEarlierAttempts(items: seq<ListItem>, plan: seq<Settlement>, tagMode: bool, pos: nat)
    requires |plan| == |items| && pos < |items|
    ensures Count(TraceFrom(items, plan, tagMode, pos + 1), AttemptKind(pos)) == 0
  {
    var t := TraceFrom(items, plan, tagMode, pos + 1);
    RunWellPlaced(items, plan, tagMode, pos + 1);
    assert forall k :: 0 <= k < |t| ==> !IsKind(t[k], AttemptKind(pos));
    CountNone(t, AttemptKind(pos));
  }

  /** The item at position `j` gets exactly its planned number of calls when
      no earlier item was interrupted, and none otherwise: nothing is called
      twice and nothing is called after an interrupt. */
  lemma {:induction false} RunAttemptCount(items: seq<ListItem>, plan: seq<Settlement>, tagMode: bool,
                                           pos: nat, j: nat)
    requires |plan| == |items| && pos <= j < |items|
    ensures Count(TraceFrom(items, plan, tagMode, pos), AttemptKind(j))
            == if NoInterruptBetween(plan, pos, j) then plan[j].calls else 0
    decreases j - pos
  {
    if plan[pos].end == Interrupted {
      InterruptedAttemptCount(items, plan, tagMode, pos, j);
      assert j > pos ==> !NoInterruptBetween(plan, pos, j);
    } else {
      AttemptCountStep(items, plan, tagMode, pos, j);
      if j == pos {
        NoEarlierAttempts(items, plan, tagMode, pos);
      } else {
        RunAttemptCount(items, plan, tagMode, pos + 1, j);
        assert NoInterruptBetween(plan, pos, j) <==> NoInterruptBetween(plan, pos + 1, j);
      }
    }
  }

  /** An interrupted item's calls end the trace from its position. */
  lemma InterruptedAttemptCount(items: seq<ListItem>, plan: seq<Settlement>, tagMode: bool,
                                pos: nat, j: nat)
    requires |plan| == |items| && pos < |items|
    requires plan[pos].end == Interrupted
    ensures Count(TraceFrom(items, plan, tagMode, pos), AttemptKind(j))
            == if j == pos then plan[pos].calls else 0
  {
    var sb := SucceededBefore(plan, pos);
    RunStep(items, plan, tagMode, pos, sb);
    ItemAttemptCount(pos, items[pos], Progress(sb + 1, |items|), plan[pos], tagMode, j);
  }

  /** The calls for position `j` from `pos` on: those of the item at `pos`,
      then those of the rest, when the item at `pos` was not interrupted. */
  lemma AttemptCountStep(items: seq<ListItem>, plan: seq<Settlement>, tagMode: bool,
                         pos: nat, j: nat)
    requires |plan| == |items| && pos < |items|
    requires plan[pos].end != Interrupted
    ensures Count(TraceFrom(items, plan, tagMode, pos), AttemptKind(j))
            == (if j == pos then plan[pos].calls else 0)
               + Count(TraceFrom(items, plan, tagMode, pos + 1), AttemptKind(j))
  {
    var sb := SucceededBefore(plan, pos);
    var ev := ItemEvents(pos, items[pos], Progress(sb + 1, |items|), plan[pos], tagMode);
    ItemAttemptCount(pos, items[pos], Progress(sb + 1, |items|), plan[pos], tagMode, j);
    TraceStep(items, plan, tagMode, pos);
    CountAppend(ev, TraceFrom(items, plan, tagMode, pos + 1), AttemptKind(j));
  }

  /** The events of the item at `pos` are in the trace from `pos`. */
  lemma FirstItemEvents(items: seq<ListItem>, plan: seq<Settlement>, tagMode: bool,
                        pos: nat, succeeded: nat, e: Event)
    requires |plan| == |items| && pos < |items|
    requires e in ItemEvents(pos, items[pos], Progress(succeeded + 1, |items|), plan[pos], tagMode)
    ensures e in RunFrom(items, plan, tagMode, pos, succeeded).trace
  {
    RunStep(items, plan, tagMode, pos, succeeded);
  }

  /** `TraceFrom` unrolled once past an item that was not interrupted. */
  lemma TraceStep(items: seq<ListItem>, plan: seq<Settlement>, tagMode: bool, pos: nat)
    requires |plan| == |items| && pos < |items|
    requires plan[pos].end != Interrupted
    ensures TraceFrom(items, plan, tagMode, pos)
            == ItemEvents(pos, items[pos], Progress(SucceededBefore(plan, pos) + 1, |items|),
                          plan[pos], tagMode)
               + TraceFrom(items, plan, tagMode, pos + 1)
  {
    var sb := SucceededBefore(plan, pos);
    assert SucceededBefore(plan, pos + 1) == sb + (if plan[pos].end == Succeeded then 1 else 0);
    RunTraceStep(items, plan, tagMode, pos, sb);
  }

  /** `RunFrom` unrolled once past an item that was not interrupted. */
  lemma RunTraceStep(items: seq<ListItem>, plan: seq<Settlement>, tagMode: bool, pos: nat, succeeded: nat)
    requires |plan| == |items| && pos < |items|
    requires plan[pos].end != Interrupted
    ensures RunFrom(items, plan, tagMode, pos, succeeded).trace
            == ItemEvents(pos, items[pos], Progress(succeeded + 1, |items|), plan[pos], tagMode)
               + RunFrom(items, plan, tagMode, pos + 1,
                         succeeded + (if plan[pos].end == Succeeded then 1 else 0)).trace
  {
    RunStep(items, plan, tagMode, pos, succeeded);
  }

  /** An event of the trace from `pos + 1` is in the trace from `pos` when
      the item at `pos` was not interrupted. */
  lemma LaterInRun(items: seq<ListItem>, plan: seq<Settlement>, tagMode: bool, pos: nat, e: Event)
    requires |plan| == |items| && pos < |items|
    requires plan[pos].end != Interrupted
    requires e in TraceFrom(items, plan, tagMode, pos + 1)
    ensures e in TraceFrom(items, plan, tagMode, pos)
  {
    TraceStep(items, plan, tagMode, pos);
    InAppendRight(ItemEvents(pos, items[pos], Progress(SucceededBefore(plan, pos) + 1, |items|),
                             plan[pos], tagMode),
                  TraceFrom(items, plan, tagMode, pos + 1), e);
  }

  /** Every event of an item reached without passing an interrupted item
      is in the trace. */
  lemma {:induction false} ItemEventsInRun(items: seq<ListItem>, plan: seq<Settlement>,
                                           tagMode: bool, pos: nat, j: nat, e: Event)
    requires |plan| == |items| && pos <= j < |items|
    requires NoInterruptBetween(plan, pos, j)
    requires e in ItemEvents(j, items[j], Progress(SucceededBefore(plan, j) + 1, |items|),
                             plan[j], tagMode)
    ensures e in TraceFrom(items, plan, tagMode, pos)
    decreases j - pos
  {
    if j == pos {
      FirstItemEvents(items, plan, tagMode, pos, SucceededBefore(plan, pos), e);
    } else {
      ItemEventsInRun(items, plan, tagMode, pos + 1, j, e);
      LaterInRun(items, plan, tagMode, pos, e);
    }
  }

  /** Every item up to the first interrupted one is attempted with retry
      counts 0, 1, ..., calls - 1: the counter restarts at 0 for each item,
      whatever happened to the items before it. */
  lemma {:induction false} RunAttemptsEveryItem(items: seq<ListItem>, plan: seq<Settlement>,
                                                tagMode: bool, pos: nat, j: nat, c: nat)
    requires |plan| == |items| && pos <= j < |items|
    requires NoInterruptBetween(plan, pos, j)
    requires c < plan[j].calls
    ensures Attempted(j, items[j].memberId, Progress(SucceededBefore(plan, j) + 1, |items|), c)
            in TraceFrom(items, plan, tagMode, pos)
    decreases j - pos
  {
    var e := Attempted(j, items[j].memberId, Progress(SucceededBefore(plan, j) + 1, |items|), c);
    if j == pos {
      ItemAttempted(j, items[j], Progress(SucceededBefore(plan, j) + 1, |items|), plan[j], tagMode, c);
      FirstItemEvents(items, plan, tagMode, pos, SucceededBefore(plan, pos), e);
    } else {
      RunAttemptsEveryItem(items, plan, tagMode, pos + 1, j, c);
      LaterInRun(items, plan, tagMode, pos, e);
    }
  }

  /** An item's events hold its calls with retry counts 0 .. calls-1. */
  lemma ItemAttempted(pos: nat, item: ListItem, p: Progress, s: Settlement, tagMode: bool, c: nat)
    requires c < s.calls
    ensures Attempted(pos, item.memberId, p, c) in ItemEvents(pos, item, p, s, tagMode)
  {
    assert ItemEvents(pos, item, p, s, tagMode)[c] == Attempted(pos, item.memberId, p, c);
  }

  /** An item given up before any interrupt leaves its give-up event in the
      trace. */
  lemma RunReportsGiveUp(items: seq<ListItem>, plan: seq<Settlement>,
                         tagMode: bool, pos: nat, j: nat)
    requires |plan| == |items| && pos <= j < |items|
    requires NoInterruptBetween(plan, pos, j)
    requires plan[j].end == GaveUp
    ensures GivenUp(items[j].memberId) in TraceFrom(items, plan, tagMode, pos)
  {
    var p := Progress(SucceededBefore(plan, j) + 1, |items|);
    var att := Attempts(j, items[j].memberId, p, plan[j].calls);
    var ev := ItemEvents(j, items[j], p, plan[j], tagMode);
    assert ev == att + [GivenUp(items[j].memberId), HistoryCleared];
    assert ev[|att|] == GivenUp(items[j].memberId);
    ItemEventsInRun(items, plan, tagMode, pos, j, GivenUp(items[j].memberId));
  }

  /** An item that succeeded in tag mode before any interrupt leaves the
      storing of its own member's download date in the trace. */
  lemma RunUpdatesDate(items: seq<ListItem>, plan: seq<Settlement>, pos: nat, j: nat)
    requires |plan| == |items| && pos <= j < |items|
    requires NoInterruptBetween(plan, pos, j)
    requires plan[j].end == Succeeded
    ensures DownloadDateUpdated(items[j].memberId) in TraceFrom(items, plan, true, pos)
  {
    var p := Progress(SucceededBefore(plan, j) + 1, |items|);
    var att := Attempts(j, items[j].memberId, p, plan[j].calls);
    var ev := ItemEvents(j, items[j], p, plan[j], true);
    assert ev == att + [DownloadDateUpdated(items[j].memberId), HistoryCleared];
    assert ev[|att|] == DownloadDateUpdated(items[j].memberId);
    ItemEventsInRun(items, plan, true, pos, j, DownloadDateUpdated(items[j].memberId));
  }

  /** One item's events: its calls in increasing retry count, all for its
      own position, ending with the history reset unless it was
      interrupted. */
  lemma ItemInOrder(pos: nat, item: ListItem, p: Progress, s: Settlement, tagMode: bool)
    ensures var ev := ItemEvents(pos, item, p, s, tagMode);
            && InOrder(ev)
            && (forall k :: 0 <= k < |ev| && ev[k].Attempted? ==> ev[k].position == pos)
            && (s.end != Interrupted ==> |ev| > 0 && ev[|ev| - 1] == HistoryCleared)
  {
    var att: seq<Event> := Attempts(pos, item.memberId, p, s.calls);
    var epi: seq<Event> := Epilogue(item.memberId, s.end, tagMode);
    var ev: seq<Event> := att + epi;
    EpilogueShape(item.memberId, s.end, tagMode);
    ItemEventsPosition(pos, item, p, s, tagMode);
    forall k1, k2 | 0 <= k1 < k2 < |ev| && ev[k1].Attempted? && ev[k2].Attempted?
      ensures Precedes(ev[k1], ev[k2])
    {
      if k2 < |att| {
        assert ev[k1] == Attempted(pos, item.memberId, p, k1);
        assert ev[k2] == Attempted(pos, item.memberId, p, k2);
      }
    }
    if s.end != Interrupted {
      assert ev[|ev| - 1] == epi[|epi| - 1];
    }
  }

  /** Ordered calls for `pos` followed by ordered calls for later positions
      are in order. */
  lemma InOrderAppend(a: seq<Event>, b: seq<Event>, pos: nat)
    requires InOrder(a) && InOrder(b) && AttemptsAfter(b, pos)
    requires forall k :: 0 <= k < |a| && a[k].Attempted? ==> a[k].position == pos
    ensures InOrder(a + b)
  {
    forall k1, k2 | 0 <= k1 < k2 < |a + b| && (a + b)[k1].Attempted? && (a + b)[k2].Attempted?
      ensures Precedes((a + b)[k1], (a + b)[k2])
    {
      if k2 < |a| {
        assert (a + b)[k1] == a[k1] && (a + b)[k2] == a[k2];
      } else if k1 < |a| {
        assert (a + b)[k1] == a[k1] && (a + b)[k2] == b[k2 - |a|];
      } else {
        assert (a + b)[k1] == b[k1 - |a|] && (a + b)[k2] == b[k2 - |a|];
      }
    }
  }

  /** Events for `pos` that end with a reset, followed by events with resets
      between items, keep a reset between items. */
  lemma ResetAppend(a: seq<Event>, b: seq<Event>, pos: nat)
    requires ResetBetweenItems(b)
    requires forall k :: 0 <= k < |a| && a[k].Attempted? ==> a[k].position == pos
    requires |a| > 0 && a[|a| - 1] == HistoryCleared
    ensures ResetBetweenItems(a + b)
  {
    var t := a + b;
    forall k1, k2 | 0 <= k1 < k2 < |t| && t[k1].Attempted? && t[k2].Attempted?
                    && t[k1].position != t[k2].position
      ensures exists m :: k1 < m < k2 && t[m] == HistoryCleared
    {
      if k1 < |a| {
        assert t[|a| - 1] == HistoryCleared;
      } else {
        assert t[k1] == b[k1 - |a|] && t[k2] == b[k2 - |a|];
        var m :| k1 - |a| < m < k2 - |a| && b[m] == HistoryCleared;
        assert t[m + |a|] == HistoryCleared;
      }
    }
  }

  /** The item at `pos` keeps the trace from `pos + 1` in order. */
  lemma InOrderStep(items: seq<ListItem>, plan: seq<Settlement>, tagMode: bool, pos: nat)
    requires |plan| == |items| && pos < |items|
    requires plan[pos].end != Interrupted ==> InOrder(TraceFrom(items, plan, tagMode, pos + 1))
    ensures InOrder(TraceFrom(items, plan, tagMode, pos))
  {
    var sb := SucceededBefore(plan, pos);
    var ev := ItemEvents(pos, items[pos], Progress(sb + 1, |items|), plan[pos], tagMode);
    ItemInOrder(pos, items[pos], Progress(sb + 1, |items|), plan[pos], tagMode);
    if plan[pos].end == Interrupted {
      RunStep(items, plan, tagMode, pos, sb);
    } else {
      TraceStep(items, plan, tagMode, pos);
      LaterAttempts(items, plan, tagMode, pos);
      InOrderAppend(ev, TraceFrom(items, plan, tagMode, pos + 1), pos);
    }
  }

  /** The trace from `pos + 1` calls only items after `pos`. */
  lemma LaterAttempts(items: seq<ListItem>, plan: seq<Settlement>, tagMode: bool, pos: nat)
    requires |plan| == |items| && pos < |items|
    ensures AttemptsAfter(TraceFrom(items, plan, tagMode, pos + 1), pos)
  {
    RunWellPlaced(items, plan, tagMode, pos + 1);
  }

  /** The loop calls the items in input order and each item with retry
      counts increasing: the calls of the trace are strictly increasing in
      (position, retry count). */
  lemma {:induction false} RunInOrder(items: seq<ListItem>, plan: seq<Settlement>, tagMode: bool,
                                      pos: nat)
    requires |plan| == |items| && pos <= |items|
    ensures InOrder(TraceFrom(items, plan, tagMode, pos))
    decreases |items| - pos
  {
    if pos < |items| {
      if plan[pos].end != Interrupted {
        RunInOrder(items, plan, tagMode, pos + 1);
      }
      InOrderStep(items, plan, tagMode, pos);
    }
  }

  /** The item at `pos` keeps the resets between items of the trace from
      `pos + 1`. */
  lemma ResetStep(items: seq<ListItem>, plan: seq<Settlement>, tagMode: bool, pos: nat)
    requires |plan| == |items| && pos < |items|
    requires plan[pos].end != Interrupted ==>
               ResetBetweenItems(TraceFrom(items, plan, tagMode, pos + 1))
    ensures ResetBetweenItems(TraceFrom(items, plan, tagMode, pos))
  {
    var sb := SucceededBefore(plan, pos);
    var ev := ItemEvents(pos, items[pos], Progress(sb + 1, |items|), plan[pos], tagMode);
    ItemInOrder(pos, items[pos], Progress(sb + 1, |items|), plan[pos], tagMode);
    if plan[pos].end == Interrupted {
      RunStep(items, plan, tagMode, pos, sb);
    } else {
      TraceStep(items, plan, tagMode, pos);
      ResetAppend(ev, TraceFrom(items, plan, tagMode, pos + 1), pos);
    }
  }

  /** The history is reset after the last call of one item and before the
      first call of the next. */
  lemma {:induction false} RunResetsBetweenItems(items: seq<ListItem>, plan: seq<Settlement>,
                                                 tagMode: bool, pos: nat)
    requires |plan| == |items| && pos <= |items|
    ensures ResetBetweenItems(TraceFrom(items, plan, tagMode, pos))
    decreases |items| - pos
  {
    if pos < |items| {
      if plan[pos].end != Interrupted {
        RunResetsBetweenItems(items, plan, tagMode, pos + 1);
      }
      ResetStep(items, plan, tagMode, pos);
    }
  }

  /** The events of the item at `pos` open the trace from `pos`. */
  lemma HeadBlock(items: seq<ListItem>, plan: seq<Settlement>, tagMode: bool, pos: nat)
    requires |plan| == |items| && pos < |items|
    ensures BlockAt(TraceFrom(items, plan, tagMode, pos),
                    ItemEvents(pos, items[pos], Progress(SucceededBefore(plan, pos) + 1, |items|),
                               plan[pos], tagMode), 0)
  {
    var sb := SucceededBefore(plan, pos);
    var ev := ItemEvents(pos, items[pos], Progress(sb + 1, |items|), plan[pos], tagMode);
    RunStep(items, plan, tagMode, pos, sb);
    if plan[pos].end != Interrupted {
      var rest := RunFrom(items, plan, tagMode, pos + 1,
                          sb + (if plan[pos].end == Succeeded then 1 else 0)).trace;
      assert (ev + rest)[0..|ev|] == ev;
    }
  }

  /** A block of the trace from `pos + 1` is a block of the trace from `pos`,
      shifted past the events of a non-interrupted item at `pos`. */
  lemma ShiftBlock(items: seq<ListItem>, plan: seq<Settlement>, tagMode: bool,
                   pos: nat, ev: seq<Event>, a: nat)
    requires |plan| == |items| && pos < |items|
    requires plan[pos].end != Interrupted
    requires BlockAt(TraceFrom(items, plan, tagMode, pos + 1), ev, a)
    ensures Contiguous(TraceFrom(items, plan, tagMode, pos), ev)
  {
    var head := ItemEvents(pos, items[pos], Progress(SucceededBefore(plan, pos) + 1, |items|),
                           plan[pos], tagMode);
    var rest := TraceFrom(items, plan, tagMode, pos + 1);
    TraceStep(items, plan, tagMode, pos);
    SliceShift(head, rest, a, a + |ev|);
    assert BlockAt(head + rest, ev, |head| + a);
  }

  /** The events of every item reached without passing an interrupted item
      form one contiguous block of the trace: its calls, then its date update
      or give-up, then its history reset, with nothing in between. */
  lemma {:induction false} ItemEventsContiguous(items: seq<ListItem>, plan: seq<Settlement>,
                                                tagMode: bool, pos: nat, j: nat)
    requires |plan| == |items| && pos <= j < |items|
    requires NoInterruptBetween(plan, pos, j)
    ensures Contiguous(TraceFrom(items, plan, tagMode, pos),
                       ItemEvents(j, items[j], Progress(SucceededBefore(plan, j) + 1, |items|),
                                  plan[j], tagMode))
    decreases j - pos
  {
    var ev := ItemEvents(j, items[j], Progress(SucceededBefore(plan, j) + 1, |items|), plan[j], tagMode);
    if j == pos {
      HeadBlock(items, plan, tagMode, pos);
    } else {
      ItemEventsContiguous(items, plan, tagMode, pos + 1, j);
      var a :| BlockAt(TraceFrom(items, plan, tagMode, pos + 1), ev, a);
      ShiftBlock(items, plan, tagMode, pos, ev, a);
    }
  }

  /** The whole loop: every item reached without an interrupt is one
      contiguous block of the trace. */
  lemma RunItemsContiguous(items: seq<ListItem>, plan: seq<Settlement>, tagMode: bool)
    requires |plan| == |items|
    ensures ItemsContiguous(items, plan, tagMode, TraceFrom(items, plan, tagMode, 0))
  {
    forall j | 0 <= j < |items| && NoInterruptBetween(plan, 0, j)
      ensures Contiguous(TraceFrom(items, plan, tagMode, 0),
                         ItemEvents(j, items[j], Progress(SucceededBefore(plan, j) + 1, |items|),
                                    plan[j], tagMode))
    {
      ItemEventsContiguous(items, plan, tagMode, 0, j);
    }
  }

  /** Where the work list comes from: the whole member table, the members
      updated within the last `days` days, or a list file. */
  datatype ListSource = AllMembers | UpdatedWithin(days: int) | ListFile(name: string)

  /** The options `process_list` reads. */
  datatype ListConfig = ListConfig(processFromDb: bool, dayLastUpdated: int, retry: int)

  /** An error raised while the list is acquired, with or without an
      `errorCode` attribute. */
  datatype Fault = Coded(code: int) | Uncoded

  /** The result of reading a list: its items, or the error raised. */
  datatype Loaded = Loaded(items: seq<ListItem>) | Raised(fault: Fault)

  /** The ignore list file: absent, or present and read. */
  datatype IgnoreFile = NoIgnoreFile | IgnoreFile(loaded: Loaded)

  /** How `process_list` ends: the loop ran to the end, a keyboard
      interrupt propagated out of it, or an error while getting the list set
      the caller's error code and was re-raised. */
  datatype BatchResult =
    | Completed(trace: seq<Event>)
    | Cancelled(trace: seq<Event>)
    | Aborted(errorCode: int)

  function SourceFor(cfg: ListConfig, listFileName: string): ListSource
  {
    if !cfg.processFromDb then ListFile(listFileName)
    else if cfg.dayLastUpdated == 0 then AllMembers
    else UpdatedWithin(cfg.dayLastUpdated)
  }

  /** The caller's error code for a fault: its `errorCode`, else -1. */
  function ErrorCode(f: Fault): int
  {
    match f
    case Coded(c) => c
    case Uncoded => -1
  }

  /** The work list: the primary list, reconciled with the ignore list when
      there is one. */
  function WorkList(items: seq<ListItem>, ignoreFile: IgnoreFile): seq<ListItem>
    requires ignoreFile.IgnoreFile? ==> ignoreFile.loaded.Loaded?
  {
    if ignoreFile.IgnoreFile? then Reconcile(items, ignoreFile.loaded.items) else items
  }

  /** `process_list`. `load` stands for the database queries and the list
      file parser, `ignoreFile` for the ignore list on disk, and a non-empty
      `tags` selects the tag handler. */
  function ProcessList(cfg: ListConfig, listFileName: string, load: ListSource -> Loaded,
                       ignoreFile: IgnoreFile, tags: string, handler: Handler): (r: BatchResult)
    ensures var primary := load(SourceFor(cfg, listFileName));
            && (r.Aborted? <==>
                  primary.Raised? || (ignoreFile.IgnoreFile? && ignoreFile.loaded.Raised?))
            && (primary.Raised? ==> r == Aborted(ErrorCode(primary.fault)))
            && (primary.Loaded? && ignoreFile.IgnoreFile? && ignoreFile.loaded.Raised? ==>
                  r == Aborted(ErrorCode(ignoreFile.loaded.fault)))
    ensures var primary := load(SourceFor(cfg, listFileName));
            primary.Loaded? && (ignoreFile.IgnoreFile? ==> ignoreFile.loaded.Loaded?) ==>
              var work := WorkList(primary.items, ignoreFile);
              (r.Cancelled? <==>
                 exists i :: 0 <= i < |work| && Settle(cfg.retry, handler(i), 0).end == Interrupted)
  {
    var primary := load(SourceFor(cfg, listFileName));
    match primary
    case Raised(f) => Aborted(ErrorCode(f))
    case Loaded(items) =>
      if ignoreFile.IgnoreFile? && ignoreFile.loaded.Raised? then Aborted(ErrorCode(ignoreFile.loaded.fault))
      else
        var work := WorkList(items, ignoreFile);
        var run := RunItems(work, cfg.retry, handler, |tags| > 0);
        if run.cancelled then Cancelled(run.trace) else Completed(run.trace)
  }

  /** What `process_list` does with a work list it managed to build: every
      call it makes is well placed; a finished run resets the history once
      per item and, in tag mode, stores the download date once per item that
      succeeded; a cancelled run ends with the interrupted call itself. */
  lemma ProcessListRuns(cfg: ListConfig, listFileName: string, load: ListSource -> Loaded,
                        ignoreFile: IgnoreFile, tags: string, handler: Handler)
    requires load(SourceFor(cfg, listFileName)).Loaded?
    requires ignoreFile.IgnoreFile? ==> ignoreFile.loaded.Loaded?
    ensures var work := WorkList(load(SourceFor(cfg, listFileName)).items, ignoreFile);
            var plan := Plan(cfg.retry, handler, |work|);
            var r := ProcessList(cfg, listFileName, load, ignoreFile, tags, handler);
            && !r.Aborted?
            && AllWellPlaced(work, plan, r.trace, 0)
            && (r.Completed? ==>
                  && Count(r.trace, ClearKind) == |work|
                  && Count(r.trace, UpdateKind) == (if |tags| > 0 then SucceededBefore(plan, |work|) else 0))
            && (r.Cancelled? ==> EndsWithInterrupt(plan, r.trace))
  {
    var work := WorkList(load(SourceFor(cfg, listFileName)).items, ignoreFile);
    var plan := Plan(cfg.retry, handler, |work|);
    var tagMode := |tags| > 0;
    var run := RunFrom(work, plan, tagMode, 0, 0);
    var r := ProcessList(cfg, listFileName, load, ignoreFile, tags, handler);
    assert r.trace == run.trace && (r.Cancelled? <==> run.cancelled);
    RunWellPlaced(work, plan, tagMode, 0);
    if run.cancelled {
      RunEndsWithInterrupt(work, plan, tagMode, 0, 0);
    } else {
      RunCounts(work, plan, tagMode, 0, 0);
    }
  }

  /** Per item: the item at position `j` is called exactly as often as its
      settlement says when no earlier item was interrupted, and never
      otherwise; a finished run reports one give-up per item given up. */
  lemma ProcessListItems(cfg: ListConfig, listFileName: string, load: ListSource -> Loaded,
                         ignoreFile: IgnoreFile, tags: string, handler: Handler)
    requires load(SourceFor(cfg, listFileName)).Loaded?
    requires ignoreFile.IgnoreFile? ==> ignoreFile.loaded.Loaded?
    ensures var work := WorkList(load(SourceFor(cfg, listFileName)).items, ignoreFile);
            var plan := Plan(cfg.retry, handler, |work|);
            var r := ProcessList(cfg, listFileName, load, ignoreFile, tags, handler);
            && (forall j :: 0 <= j < |work| ==>
                  Count(r.trace, AttemptKind(j))
                  == if NoInterruptBetween(plan, 0, j) then plan[j].calls else 0)
            && (r.Completed? ==> Count(r.trace, GiveUpKind) == GaveUpBefore(plan, |work|))
            && (forall j :: 0 <= j < |work| && NoInterruptBetween(plan, 0, j) && plan[j].end == GaveUp ==>
                  GivenUp(work[j].memberId) in r.trace)
            && (forall j :: 0 <= j < |work| && NoInterruptBetween(plan, 0, j)
                            && plan[j].end == Succeeded && |tags| > 0 ==>
                  DownloadDateUpdated(work[j].memberId) in r.trace)
  {
    var work := WorkList(load(SourceFor(cfg, listFileName)).items, ignoreFile);
    var plan := Plan(cfg.retry, handler, |work|);
    var tagMode := |tags| > 0;
    var run := RunFrom(work, plan, tagMode, 0, 0);
    var r := ProcessList(cfg, listFileName, load, ignoreFile, tags, handler);
    assert r.trace == TraceFrom(work, plan, tagMode, 0) && (r.Completed? <==> !run.cancelled);
    forall j | 0 <= j < |work|
      ensures Count(r.trace, AttemptKind(j))
              == if NoInterruptBetween(plan, 0, j) then plan[j].calls else 0
    {
      RunAttemptCount(work, plan, tagMode, 0, j);
    }
    if !run.cancelled {
      RunGiveUps(work, plan, tagMode, 0, 0);
    }
    forall j | 0 <= j < |work| && NoInterruptBetween(plan, 0, j) && plan[j].end == GaveUp
      ensures GivenUp(work[j].memberId) in r.trace
    {
      RunReportsGiveUp(work, plan, tagMode, 0, j);
    }
    forall j | 0 <= j < |work| && NoInterruptBetween(plan, 0, j)
               && plan[j].end == Succeeded && |tags| > 0
      ensures DownloadDateUpdated(work[j].memberId) in r.trace
    {
      RunUpdatesDate(work, plan, 0, j);
    }
  }

  /** The calls `process_list` makes come in input order, each item with
      increasing retry counts, and the history is reset between the calls
      of one item and those of the next. */
  lemma ProcessListOrder(cfg: ListConfig, listFileName: string, load: ListSource -> Loaded,
                         ignoreFile: IgnoreFile, tags: string, handler: Handler)
    requires load(SourceFor(cfg, listFileName)).Loaded?
    requires ignoreFile.IgnoreFile? ==> ignoreFile.loaded.Loaded?
    ensures var r := ProcessList(cfg, listFileName, load, ignoreFile, tags, handler);
            InOrder(r.trace) && ResetBetweenItems(r.trace)
  {
    var work := WorkList(load(SourceFor(cfg, listFileName)).items, ignoreFile);
    var plan := Plan(cfg.retry, handler, |work|);
    var r := ProcessList(cfg, listFileName, load, ignoreFile, tags, handler);
    assert r.trace == TraceFrom(work, plan, |tags| > 0, 0);
    RunInOrder(work, plan, |tags| > 0, 0);
    RunResetsBetweenItems(work, plan, |tags| > 0, 0);
  }

  /** Every work item `process_list` reaches without an interrupt
      contributes its events as one contiguous block of the trace: its calls
      in order, then its date update or give-up, then its history reset. */
  lemma ProcessListBlocks(cfg: ListConfig, listFileName: string, load: ListSource -> Loaded,
                          ignoreFile: IgnoreFile, tags: string, handler: Handler)
    requires load(SourceFor(cfg, listFileName)).Loaded?
    requires ignoreFile.IgnoreFile? ==> ignoreFile.loaded.Loaded?
    ensures var work := WorkList(load(SourceFor(cfg, listFileName)).items, ignoreFile);
            var plan := Plan(cfg.retry, handler, |work|);
            var r := ProcessList(cfg, listFileName, load, ignoreFile, tags, handler);
            ItemsContiguous(work, plan, |tags| > 0, r.trace)
  {
    var work := WorkList(load(SourceFor(cfg, listFileName)).items, ignoreFile);
    var plan := Plan(cfg.retry, handler, |work|);
    var r := ProcessList(cfg, listFileName, load, ignoreFile, tags, handler);
    assert r.trace == TraceFrom(work, plan, |tags| > 0, 0);
    RunItemsContiguous(work, plan, |tags| > 0);
  }

  /** A work item whose handler always fails, reached without an interrupt,
      is called exactly max(1, retry + 2) times and then reported as given
      up. */
  lemma AlwaysFailingItem(cfg: ListConfig, listFileName: string, load: ListSource -> Loaded,
                          ignoreFile: IgnoreFile, tags: string, handler: Handler, j: nat)
    requires load(SourceFor(cfg, listFileName)).Loaded?
    requires ignoreFile.IgnoreFile? ==> ignoreFile.loaded.Loaded?
    requires j < |WorkList(load(SourceFor(cfg, listFileName)).items, ignoreFile)|
    requires forall a :: handler(j)(a) == Fail
    requires forall i :: 0 <= i < j ==> Settle(cfg.retry, handler(i), 0).end != Interrupted
    ensures var work := WorkList(load(SourceFor(cfg, listFileName)).items, ignoreFile);
            var r := ProcessList(cfg, listFileName, load, ignoreFile, tags, handler);
            && Count(r.trace, AttemptKind(j)) == Max(1, cfg.retry + 2)
            && GivenUp(work[j].memberId) in r.trace
  {
    var work := WorkList(load(SourceFor(cfg, listFileName)).items, ignoreFile);
    var plan := Plan(cfg.retry, handler, |work|);
    var r := ProcessList(cfg, listFileName, load, ignoreFile, tags, handler);
    AlwaysFailingGivesUp(cfg.retry, handler(j));
    assert NoInterruptBetween(plan, 0, j);
    ProcessListItems(cfg, listFileName, load, ignoreFile, tags, handler);
    RunReportsGiveUp(work, plan, |tags| > 0, 0, j);
    assert r.trace == TraceFrom(work, plan, |tags| > 0, 0);
  }
}

=== FILE: reconcile.dfy ===
/** The ignore-list reconciliation at the head of `process_list`: every entry
    of the ignore list removes the first work item with the same member id,
    and only that one. */
module Reconciliation {
  import opened Seqs

  type MemberId = int

  /** One line of a member list: the member id and its root-directory hint. */
  datatype ListItem = ListItem(memberId: MemberId, path: string)

  /** The member ids of a list, in order. */
  function Ids(items: seq<ListItem>): (ids: seq<MemberId>)
    ensures |ids| == |items|
    ensures forall i :: 0 <= i < |items| ==> ids[i] == items[i].memberId
  {
    if |items| == 0 then [] else [items[0].memberId] + Ids(items[1..])
  }

  /** No member id occurs twice in the list. */
  predicate DistinctIds(items: seq<ListItem>)
  {
    forall i, j :: 0 <= i < j < |items| ==> items[i].memberId != items[j].memberId
  }

  /** Walks the list and removes the first item whose member id is `id`;
      a list without such an item comes back unchanged. */
  function RemoveFirst(items: seq<ListItem>, id: MemberId): (r: seq<ListItem>)
    ensures id !in Ids(items) ==> r == items
    ensures id in Ids(items) ==> |r| == |items| - 1
  {
    if |items| == 0 then []
    else if items[0].memberId == id then items[1..]
    else
      assert Ids(items) == [items[0].memberId] + Ids(items[1..]);
      [items[0]] + RemoveFirst(items[1..], id)
  }

  /** The item removed is the first one carrying `id`: everything before it
      and everything after it is kept as it was. */
  lemma {:induction false} RemoveFirstAt(items: seq<ListItem>, id: MemberId, k: nat)
    requires k < |items| && items[k].memberId == id
    requires forall j :: 0 <= j < k ==> items[j].memberId != id
    ensures RemoveFirst(items, id) == items[..k] + items[k + 1..]
    decreases k
  {
    if k > 0 {
      RemoveFirstAt(items[1..], id, k - 1);
      assert RemoveFirst(items, id) == [items[0]] + RemoveFirst(items[1..], id);
      SpliceCons(items, k);
    }
  }

  /** Dropping index `k` commutes with taking the head off. */
  lemma SpliceCons<T>(s: seq<T>, k: nat)
    requires 0 < k < |s|
    ensures [s[0]] + (s[1..][..k - 1] + s[1..][k..]) == s[..k] + s[k + 1..]
  {
    assert s[1..][..k - 1] == s[1..k];
    assert s[1..][k..] == s[k + 1..];
    assert [s[0]] + s[1..k] == s[..k];
  }

  /** Applies the ignore list entry by entry, in its own order; each entry
      removes at most one item. */
  function Reconcile(primary: seq<ListItem>, ignore: seq<ListItem>): (r: seq<ListItem>)
    ensures |r| <= |primary|
    ensures |primary| - |ignore| <= |r|
    decreases |ignore|
  {
    if |ignore| == 0 then primary
    else Reconcile(RemoveFirst(primary, ignore[0].memberId), ignore[1..])
  }

  /** Removing the first match keeps the order of the remaining items. */
  lemma {:induction false} RemoveFirstSubseq(items: seq<ListItem>, id: MemberId)
    ensures IsSubseq(RemoveFirst(items, id), items)
    decreases |items|
  {
    if |items| == 0 {
    } else if items[0].memberId == id {
      SubseqRefl(items[1..]);
      SubseqSkip(items[1..], items[0], items[1..]);
      assert [items[0]] + items[1..] == items;
    } else {
      RemoveFirstSubseq(items[1..], id);
      SubseqCons(items[0], RemoveFirst(items[1..], id), items[1..]);
      assert [items[0]] + items[1..] == items;
    }
  }

  /** On member ids, removing the first match takes exactly one copy of `id`
      out of the multiset of ids, and nothing when there is no match. */
  lemma {:induction false} RemoveFirstIds(items: seq<ListItem>, id: MemberId)
    ensures multiset(Ids(RemoveFirst(items, id))) == multiset(Ids(items)) - multiset{id}
    decreases |items|
  {
    if |items| == 0 {
    } else {
      assert Ids(items) == [items[0].memberId] + Ids(items[1..]);
      if items[0].memberId == id {
      } else {
        RemoveFirstIds(items[1..], id);
        assert Ids([items[0]] + RemoveFirst(items[1..], id))
            == [items[0].memberId] + Ids(RemoveFirst(items[1..], id));
      }
    }
  }

  /** The reconciled list keeps the primary list's order: it is what is left
      after deleting some of its items. */
  lemma {:induction false} ReconcileSubseq(primary: seq<ListItem>, ignore: seq<ListItem>)
    ensures IsSubseq(Reconcile(primary, ignore), primary)
    decreases |ignore|
  {
    if |ignore| > 0 {
      var once := RemoveFirst(primary, ignore[0].memberId);
      assert Reconcile(primary, ignore) == Reconcile(once, ignore[1..]);
      ReconcileSubseq(once, ignore[1..]);
      RemoveFirstSubseq(primary, ignore[0].memberId);
      SubseqTrans(Reconcile(once, ignore[1..]), once, primary);
    } else {
      SubseqRefl(primary);
    }
  }

  /** Each ignore entry cancels at most one primary item with its id: the
      member ids left are the multiset difference of the two id lists. */
  lemma {:induction false} ReconcileIds(primary: seq<ListItem>, ignore: seq<ListItem>)
    ensures multiset(Ids(Reconcile(primary, ignore)))
         == multiset(Ids(primary)) - multiset(Ids(ignore))
    decreases |ignore|
  {
    if |ignore| > 0 {
      var x := ignore[0].memberId;
      var once := RemoveFirst(primary, x);
      ReconcileIds(once, ignore[1..]);
      RemoveFirstIds(primary, x);
      assert Ids(ignore) == [x] + Ids(ignore[1..]);
      DiffStep(multiset(Ids(primary)), multiset(Ids(ignore[1..])), x);
    }
  }

  /** Taking out `x` and then `i` takes out `x` and `i` together. */
  lemma DiffStep(m: multiset<MemberId>, i: multiset<MemberId>, x: MemberId)
    ensures (m - multiset{x}) - i == m - (multiset{x} + i)
  {
    forall y ensures ((m - multiset{x}) - i)[y] == (m - (multiset{x} + i))[y] { }
  }

  /** How one more ignore entry `x` changes the matched part of the ids. */
  lemma MatchedStep(m: multiset<MemberId>, i: multiset<MemberId>, x: MemberId)
    ensures x in m ==> m * (multiset{x} + i) == (m - multiset{x}) * i + multiset{x}
    ensures x !in m ==> m * (multiset{x} + i) == m * i
  {
    if x in m {
      forall y ensures (m * (multiset{x} + i))[y] == ((m - multiset{x}) * i + multiset{x})[y] { }
    } else {
      forall y ensures (m * (multiset{x} + i))[y] == (m * i)[y] { }
    }
  }

  /** The list shrinks by exactly the number of ignore entries that found a
      match: the size of the common part of the two id multisets. */
  lemma {:induction false} ReconcileLength(primary: seq<ListItem>, ignore: seq<ListItem>)
    ensures |Reconcile(primary, ignore)|
         == |primary| - |multiset(Ids(primary)) * multiset(Ids(ignore))|
    decreases |ignore|
  {
    if |ignore| > 0 {
      var x := ignore[0].memberId;
      var once := RemoveFirst(primary, x);
      assert Reconcile(primary, ignore) == Reconcile(once, ignore[1..]);
      ReconcileLength(once, ignore[1..]);
      RemoveFirstIds(primary, x);
      assert Ids(ignore) == [x] + Ids(ignore[1..]);
      var m, i := multiset(Ids(primary)), multiset(Ids(ignore[1..]));
      assert multiset(Ids(ignore)) == multiset{x} + i;
      MatchedStep(m, i, x);
    } else {
      assert multiset(Ids(ignore)) == multiset{};
      assert multiset(Ids(primary)) * multiset{} == multiset{};
    }
  }

  /** In a list with distinct ids every id occurs at most once. */
  lemma {:induction false} DistinctCount(items: seq<ListItem>, y: MemberId)
    requires DistinctIds(items)
    ensures multiset(Ids(items))[y] <= 1
    decreases |items|
  {
    if |items| > 0 {
      assert Ids(items) == [items[0].memberId] + Ids(items[1..]);
      assert DistinctIds(items[1..]) by {
        forall i, j | 0 <= i < j < |items[1..]|
          ensures items[1..][i].memberId != items[1..][j].memberId
        {
          assert items[1..][i] == items[i + 1] && items[1..][j] == items[j + 1];
        }
      }
      DistinctCount(items[1..], y);
      if items[0].memberId == y {
        assert y !in Ids(items[1..]);
      }
    }
  }

  /** With distinct primary ids, no ignored member id is left after
      reconciliation. */
  lemma NoIgnoredSurvives(primary: seq<ListItem>, ignore: seq<ListItem>)
    requires DistinctIds(primary)
    ensures forall k :: 0 <= k < |Reconcile(primary, ignore)| ==>
              Reconcile(primary, ignore)[k].memberId !in Ids(ignore)
  {
    var r := Reconcile(primary, ignore);
    var m, i := multiset(Ids(primary)), multiset(Ids(ignore));
    ReconcileIds(primary, ignore);
    forall k | 0 <= k < |r| ensures r[k].memberId !in Ids(ignore)
    {
      var y := r[k].memberId;
      assert Ids(r)[k] == y;
      assert multiset(Ids(r))[y] >= 1;
      DistinctCount(primary, y);
      assert m[y] <= 1;
      assert (m - i)[y] >= 1;
      assert i[y] == 0;
    }
  }

  /** An ignore list none of whose ids occur in the list changes nothing. */
  lemma {:induction false} ReconcileNoMatch(items: seq<ListItem>, ignore: seq<ListItem>)
    requires forall k :: 0 <= k < |ignore| ==> ignore[k].memberId !in Ids(items)
    ensures Reconcile(items, ignore) == items
    decreases |ignore|
  {
    if |ignore| > 0 {
      assert RemoveFirst(items, ignore[0].memberId) == items;
      ReconcileNoMatch(items, ignore[1..]);
    }
  }

  /** With distinct primary ids, applying the same ignore list a second time
      removes nothing more. */
  lemma ReconcileIdempotent(primary: seq<ListItem>, ignore: seq<ListItem>)
    requires DistinctIds(primary)
    ensures Reconcile(Reconcile(primary, ignore), ignore) == Reconcile(primary, ignore)
  {
    var r := Reconcile(primary, ignore);
    NoIgnoredSurvives(primary, ignore);
    forall k | 0 <= k < |ignore| ensures ignore[k].memberId !in Ids(r)
    {
      assert Ids(ignore)[k] == ignore[k].memberId;
      forall j | 0 <= j < |Ids(r)| ensures Ids(r)[j] != ignore[k].memberId { }
    }
    ReconcileNoMatch(r, ignore);
  }

  /** Without distinct ids neither holds: one ignore entry removes only one
      of two items with the same id, so the id survives the first pass and
      a second pass removes the other copy. */
  lemma DuplicateSurvives()
    ensures var primary := [ListItem(7, "a"), ListItem(7, "b")];
            var ignore := [ListItem(7, "")];
            && Reconcile(primary, ignore) == [ListItem(7, "b")]
            && Reconcile(Reconcile(primary, ignore), ignore) == []
  {
    var primary := [ListItem(7, "a"), ListItem(7, "b")];
    var ignore := [ListItem(7, "")];
    assert RemoveFirst(primary, 7) == [ListItem(7, "b")];
    assert RemoveFirst([ListItem(7, "b")], 7) == [];
  }
}

=== FILE: retry.dfy ===
/** The per-item retry loop of `process_list`. The handler for one work item
    is modelled as the stream of outcomes its successive calls produce; the
    two-second sleep between attempts has no behavioural content and is
    left out. */
module Retry {

  /** What one handler call does: return normally, raise any error other
      than a keyboard interrupt, or raise a keyboard interrupt. */
  datatype Outcome = Success | Fail | Interrupt

  /** How the work on one item ends. */
  datatype ItemEnd = Succeeded | GaveUp | Interrupted

  /** The number of handler calls made for one item and how the item ended. */
  datatype Settlement = Settlement(calls: nat, end: ItemEnd)

  /** The outcome stream of one item: `outs(a)` is the outcome of the call
      made while `retry_count` is `a`. */
  type Stream = nat -> Outcome

  function Max(a: int, b: int): int
  {
    if a >= b then a else b
  }

  /** The `retry_count` of the last call a failing item can get: the first
      count above the configured retry limit, and never below where the item
      started. */
  function LastCount(retry: int, count: nat): (last: nat)
    ensures last >= count && last > retry
  {
    Max(count, retry + 1)
  }

  /** The `while True` loop for one item, entered with `retry_count = count`.
      A failure gives the item up when the count is above the retry limit
      and otherwise retries with the count one higher; an interrupt ends the
      item at once, without a retry. */
  function Settle(retry: int, outs: Stream, count: nat): (s: Settlement)
    ensures s.calls >= 1
    ensures count + s.calls - 1 <= LastCount(retry, count)
    decreases if count <= retry then retry - count + 1 else 0
  {
    match outs(count)
    case Success => Settlement(1, Succeeded)
    case Interrupt => Settlement(1, Interrupted)
    case Fail =>
      if count > retry then Settlement(1, GaveUp)
      else
        var s := Settle(retry, outs, count + 1);
        Settlement(s.calls + 1, s.end)
  }

  /** The settlement of an item is fixed by its outcome stream: every call
      before the last failed, the last call's outcome is how the item ended,
      and a give-up happens exactly at the last count allowed. */
  lemma {:induction false} SettleCharacterised(retry: int, outs: Stream, count: nat)
    ensures var s := Settle(retry, outs, count);
            var last := count + s.calls - 1;
            && (forall a :: count <= a < last ==> outs(a) == Fail)
            && (s.end == Succeeded <==> outs(last) == Success)
            && (s.end == Interrupted <==> outs(last) == Interrupt)
            && (s.end == GaveUp <==> outs(last) == Fail)
            && (s.end == GaveUp ==> last == LastCount(retry, count))
    decreases if count <= retry then retry - count + 1 else 0
  {
    if outs(count) == Fail && count <= retry {
      SettleCharacterised(retry, outs, count + 1);
    }
  }

  /** With retry limit `retry`, a handler that always fails is called
      `retry + 2` times (once when the limit is below -1), and then the item
      is given up. */
  lemma AlwaysFailingGivesUp(retry: int, outs: Stream)
    requires forall a :: outs(a) == Fail
    ensures Settle(retry, outs, 0) == Settlement(Max(1, retry + 2), GaveUp)
  {
    SettleCharacterised(retry, outs, 0);
  }

  /** A handler that fails `k` times and then succeeds reaches success iff
      `k <= retry + 1` (for a limit of at least -1), after `k + 1` calls;
      otherwise the item is given up after `retry + 2` calls. */
  lemma FailThenSucceed(retry: int, outs: Stream, k: nat)
    requires forall a :: 0 <= a < k ==> outs(a) == Fail
    requires outs(k) == Success
    ensures var s := Settle(retry, outs, 0);
            && (s.end == Succeeded <==> k <= Max(0, retry + 1))
            && (s.end == Succeeded ==> s.calls == k + 1)
            && (s.end != Succeeded ==> s == Settlement(Max(1, retry + 2), GaveUp))
  {
    SettleCharacterised(retry, outs, 0);
  }

  /** An interrupt is never retried: if the first non-failure before the
      give-up point is an interrupt, the item ends there, interrupted. */
  lemma InterruptNotRetried(retry: int, outs: Stream, k: nat)
    requires forall a :: 0 <= a < k ==> outs(a) == Fail
    requires outs(k) == Interrupt
    requires k <= Max(0, retry + 1)
    ensures Settle(retry, outs, 0) == Settlement(k + 1, Interrupted)
  {
    SettleCharacterised(retry, outs, 0);
  }
}

=== FILE: seqs.dfy ===
/** Order-preserving subsequences, shared by the list reconciliation,
    the content filter and the de-duplication gate. */
module Seqs {

  /** True iff `a` can be obtained from `b` by deleting elements, keeping
      the relative order of the rest. */
  predicate IsSubseq<T(==)>(a: seq<T>, b: seq<T>)
    decreases |b|
  {
    if |a| == 0 then true
    else if |b| == 0 then false
    else if a[0] == b[0] then IsSubseq(a[1..], b[1..])
    else IsSubseq(a, b[1..])
  }

  /** Every sequence is a subsequence of itself. */
  lemma {:induction false} SubseqRefl<T>(a: seq<T>)
    ensures IsSubseq(a, a)
    decreases |a|
  {
    if |a| > 0 {
      SubseqRefl(a[1..]);
    }
  }

  /** A subsequence of `b` is still one after `x` is put in front of `b`. */
  lemma {:induction false} SubseqSkip<T>(a: seq<T>, x: T, b: seq<T>)
    requires IsSubseq(a, b)
    ensures IsSubseq(a, [x] + b)
    decreases |b|, 1
  {
    if |a| > 0 && a[0] != x {
      assert ([x] + b)[1..] == b;
    }
    if |a| > 0 && a[0] == x {
      SubseqTail(a, b);
      assert ([x] + b)[1..] == b;
    }
  }

  /** Dropping the head of a subsequence keeps it a subsequence. */
  lemma {:induction false} SubseqTail<T>(a: seq<T>, b: seq<T>)
    requires |a| > 0
    requires IsSubseq(a, b)
    ensures IsSubseq(a[1..], b)
    decreases |b|, 0
  {
    assert |b| > 0;
    if a[0] == b[0] {
      SubseqSkip(a[1..], b[0], b[1..]);
      assert [b[0]] + b[1..] == b;
    } else {
      SubseqTail(a, b[1..]);
      SubseqSkip(a[1..], b[0], b[1..]);
      assert [b[0]] + b[1..] == b;
    }
  }

  /** Both sequences gain the same head. */
  lemma SubseqCons<T>(x: T, a: seq<T>, b: seq<T>)
    requires IsSubseq(a, b)
    ensures IsSubseq([x] + a, [x] + b)
  {
    assert ([x] + a)[1..] == a;
    assert ([x] + b)[1..] == b;
  }

  /** Subsequence is transitive. */
  lemma {:induction false} SubseqTrans<T>(a: seq<T>, b: seq<T>, c: seq<T>)
    requires IsSubseq(a, b) && IsSubseq(b, c)
    ensures IsSubseq(a, c)
    decreases |c|
  {
    if |a| == 0 {
    } else if |c| == 0 {
    } else if |b| > 0 && b[0] == c[0] {
      if a[0] == b[0] {
        SubseqTrans(a[1..], b[1..], c[1..]);
      } else {
        SubseqTrans(a, b[1..], c[1..]);
      }
    } else {
      SubseqTrans(a, b, c[1..]);
      SubseqSkip(a, c[0], c[1..]);
      assert [c[0]] + c[1..] == c;
    }
  }

  /** A slice of the tail is the slice of the whole one position on. */
  lemma SliceOfTail<T>(s: seq<T>, a: nat, b: nat)
    requires 1 <= a <= b <= |s|
    ensures s[1..][a - 1..b - 1] == s[a..b]
  {
    forall k | 0 <= k < b - a ensures s[1..][a - 1..b - 1][k] == s[a..b][k] {
      assert s[1..][a - 1..b - 1][k] == s[1..][a - 1 + k];
    }
  }

  /** An element of the right operand is in the concatenation. */
  lemma InAppendRight<T>(a: seq<T>, b: seq<T>, x: T)
    requires x in b
    ensures x in a + b
  {
    var k :| 0 <= k < |b| && b[k] == x;
    assert (a + b)[|a| + k] == x;
  }

  /** A slice of the right operand is the slice of the concatenation shifted
      by the length of the left one. */
  lemma SliceShift<T>(a: seq<T>, b: seq<T>, i: nat, k: nat)
    requires i <= k <= |b|
    ensures (a + b)[|a| + i..|a| + k] == b[i..k]
  {
    forall n | 0 <= n < k - i ensures (a + b)[|a| + i..|a| + k][n] == b[i..k][n] {
      assert (a + b)[|a| + i..|a| + k][n] == (a + b)[|a| + i + n];
    }
  }
}
